=== FILE: README.md ===
# A verified model of the e-learning platform's core

The platform teaches Python through courses, downloadable PDFs and multiple-choice
quizzes. A Django REST back end serves the catalogue, registers and logs in users with
JWT token pairs, and grades quiz submissions. A React front end talks to it through one
shared axios client, which attaches the stored access token and refreshes it once on a
401. This project models, in Dafny:

- **`CoursesViews`** (`courses_views.dfy`) covers the course, PDF and quiz list endpoints
  and the quiz submission endpoint. The submission endpoint validates the request,
  grades every question, records one `QuizAttempt` and returns a review of each question.
  An exception turns into a 500 response. The two grading loops are methods, each proved
  against the specification functions `CorrectCount`, `Reviews` and `FirstFault`.
- **`AccountsViews`** (`accounts_views.dfy`) covers registration and login. This includes
  the loop that flattens the serializer's errors into one message per field.
- **`AxiosClient`** (`axios_client.dfy`) covers the request interceptor and the
  response interceptor, with the refresh-and-replay path. The server is a script of
  replies.
- **`AuthContext`** (`auth_context.dfy`) is the session: the startup check, `fetchUser`,
  `login`, `signup` and `logout`. It also holds the chain that turns an error body into
  the one message shown to the user.
- **The pages**:
  - `QuizPage`: the answer map, the count gate, the payload, and the message for a failed
    submission.
  - `SignupPage`: the form and its password gate.
  - `CoursesPage`: unwrapping a paginated list, and classifying a failed load.
  - `PdfsPage`: the course filter.
  - `DashboardPage`: the first six courses and quizzes, and the greeting.

Shared pieces:

- `Json` holds JSON values. It also gives their JavaScript truthiness and `||`, and
  `JSON.stringify` with a proved unescaping round trip.
- `Text` holds integer printing and parsing. Python's `int(str)` and JavaScript's
  `parseInt` each have a round-trip lemma. `Text` also holds the field-label rewrite
  that error messages use.
- `Seqs` holds a filter with its algebra.
- `Browser` holds `localStorage`.

Linking the two halves of the system, `QuizPage.ServerAcceptsPayload` and
`QuizPage.ServerReadsAnswer` prove the following: the payload the quiz page posts passes
every check of the submission endpoint. The endpoint then reads, for each question,
exactly the choice the page recorded. `AuthContext.BackendErrorsShown` proves that a
validation failure from the accounts views reaches the user as one `Label: message`
per field, in field order.

## Model

| member | source | states |
|---|---|---|
| CoursesViews.CourseBySlug | backend/courses/views.py:16-20 | The course found is active and has the slug; none is found only when no active course has that slug |
| CoursesViews.ActiveCourses | backend/courses/views.py:18 | The course list holds active courses of the table only, and every active course |
| CoursesViews.ActiveForCourse | backend/courses/views.py:32-36 | Without a `course` parameter (or with an empty one): all active rows, in order. With one: every active row of that course and nothing else. It is an error exactly when the parameter is not an integer |
| CoursesViews.PdfList | backend/courses/views.py:28-40 | `pdf_list_view`: only active PDFs, all of them without a `course` parameter; with one, exactly the active PDFs of that course; an error exactly when the parameter is not an integer |
| CoursesViews.QuizList | backend/courses/views.py:44-53 | `quiz_list_view`: only active quizzes, all of them without a `course` parameter; with one, exactly the active quizzes of that course; an error exactly when the parameter is not an integer |
| CoursesViews.PdfListSkipsUncoursed | backend/courses/views.py:32-36 | A PDF with no course never appears in a course-filtered list |
| CoursesViews.PyInt | backend/courses/views.py:78 | `int()` keeps a number and reads `True`/`False` as 1/0. On a string it succeeds exactly when the text is a Python integer literal, with that literal's value, and otherwise raises `invalid literal` naming the text. It raises a type error on null, lists and dicts |
| Text.PyIntRoundTrip | backend/courses/views.py:78 | `int(str(n)) == n` for every integer, so a `quiz_id` sent as the string form of the pk passes the comparison |
| CoursesViews.FindQuiz | backend/courses/views.py:71 | The quiz found is active and has the URL's pk. None is found only when no active quiz has it |
| CoursesViews.Validate | backend/courses/views.py:69-95 | Checks run in the view's order. A missing quiz is a 500, not a 404, because the lookup is inside the `try`. Success means: the quiz has questions; the body is a dict; a truthy `quiz_id` equals the pk; `answers` is a dict, or the empty dict when absent. Every refusal is a 400 or a 500 |
| CoursesViews.ValidateRefusals | backend/courses/views.py:69-95 | Each refusal with its message: a body that is not a dict is a 500 naming its type; a truthy `quiz_id` that `int()` rejects is a 500 with the `int()` message; one that reads as another id is 400 `Quiz ID mismatch`; then `answers` that is not a dict is 400 `Answers must be a dictionary`; then a quiz without questions is 400 `Quiz has no questions` |
| CoursesViews.ValidateAccepts | backend/courses/views.py:69-95 | Validation passes exactly when the quiz exists, the body is a dict, the `quiz_id` is absent, falsy or reads as the pk, `answers` is a dict or absent, and the quiz has questions |
| CoursesViews.PyGet | backend/courses/views.py:100 | `dict.get` gives a value held under the key, and nothing exactly when no item has the key. With duplicate keys the model reads the first (see Left out) |
| CoursesViews.FromJson | backend/courses/views.py:75 | A dict decoded from JSON keeps every member, in order, under a `str` key |
| CoursesViews.AnswerValue | backend/courses/views.py:100-101 | The answer used is truthy. It is the string key's value when that is truthy, else the integer key's value when that is truthy, and none exactly when neither lookup gives anything truthy |
| CoursesViews.JsonAnswersUseStringKeys | backend/courses/views.py:100 | For an answer dict decoded from JSON, the integer-key fallback never finds anything. The answer is the string-key value when that value is truthy |
| CoursesViews.GetFromJson | backend/courses/views.py:100 | A lookup in the decoded dict is the same as a lookup in the JSON object |
| CoursesViews.FindChoice | backend/courses/views.py:104 | The choice found belongs to the question and has the id. None is found only when no choice of the question has it |
| CoursesViews.FirstCorrect | backend/courses/views.py:121 | The correct answer shown is a correct choice of the question. There is none only when the question has no correct choice |
| CoursesViews.FirstCorrectIsFirst | backend/courses/views.py:121 | The correct answer shown is the first correct choice: no choice before it is correct |
| CoursesViews.FirstFaultNoneOfAll | backend/courses/views.py:98-106 | No exception is raised when every answer converts with `int()` |
| CoursesViews.AllOfFirstFaultNone | backend/courses/views.py:98-106 | The converse: no exception means every answer converts |
| CoursesViews.FirstFaultIsFirst | backend/courses/views.py:98-106 | The exception raised comes from a question whose answer does not convert, and every earlier question's answer does convert |
| CoursesViews.FirstFaultPrefix | backend/courses/views.py:98-106 | Stopping at the first exception among the first j questions is the same as stopping at it in the whole loop |
| CoursesViews.FaultAt | backend/courses/views.py:98-106 | An answer that does not convert, at any position, makes the loop raise |
| CoursesViews.GradeStep | backend/courses/views.py:98-106 | One more turn of the first loop: the fault and the count of the longer prefix follow from the shorter one's and the next question |
| CoursesViews.CorrectCount | backend/courses/views.py:98-106 | `correct_count` never exceeds the number of questions |
| CoursesViews.CorrectCountAll | backend/courses/views.py:98-106 | `correct_count` equals the number of questions exactly when every question scores |
| CoursesViews.CorrectCountNone | backend/courses/views.py:98-106 | `correct_count` is 0 exactly when no question scores |
| CoursesViews.ScoreBounds | backend/courses/views.py:108 | The score is a percentage. It is 0 when nothing is correct and 100 when everything is |
| CoursesViews.Score | backend/courses/views.py:108 | The integer percentage of correct answers, 0 for an empty quiz; its bounds are stated by `ScoreBounds` |
| CoursesViews.GradeOf | backend/courses/views.py:98-144 | The total is the number of questions, at most that many are correct, there is one review per question, and the attempt passes exactly when the score reaches `passing_score` |
| CoursesViews.ReviewJson | backend/courses/views.py:129-135 | A review is sent with its five keys in the view's order; `user_answer` is null exactly when nothing valid was chosen; `is_correct` is the review's verdict |
| CoursesViews.GradedBody | backend/courses/views.py:137-144 | The 200 body has its six keys in the view's order, and `results` holds one review object per question, in question order |
| CoursesViews.Judge | backend/courses/views.py:66-150 | The submission's outcome: a refusal is a 400 or a 500; grading happens exactly when validation passes and no answer makes `int()` raise; an answer that makes `int()` raise in the grading loop is the 500 error body of the first such fault; a graded quiz is the requested one, with at least one question and a score from 0 to 100 |
| CoursesViews.ReviewsStep | backend/courses/views.py:119-135 | Each turn of the second loop appends the review of the next question |
| CoursesViews.ReviewsCountCorrect | backend/courses/views.py:119-135 | The number of reviews marked `is_correct` is `correct_count` |
| CoursesViews.CountCorrect | backend/courses/views.py:98-106 | The first loop raises exactly when some answer does not convert, and then raises the first such question's exception. Otherwise it returns `CorrectCount` |
| CoursesViews.BuildResults | backend/courses/views.py:119-135 | The second loop raises exactly when the first one does. Otherwise it returns one review per question, in question order |
| CoursesViews.GradeFacts | backend/courses/views.py:108-144 | The grade: 0 ≤ correct ≤ total = number of questions; 0 ≤ score ≤ 100; 100 when all score and 0 when none do; `passed` iff score ≥ `passing_score`; one review per question with its id; the correct reviews count to `correct_count` |
| CoursesViews.ForeignChoiceNeverScores | backend/courses/views.py:104-105 | An answer naming a choice of another question neither scores nor shows a user answer |
| CoursesViews.FalsyAnswerIsUnanswered | backend/courses/views.py:100-101 | A missing or falsy answer leaves the question unanswered and not correct |
| CoursesViews.MissingQuizIsServerError | backend/courses/views.py:69-71 | A missing or inactive quiz is answered with the 500 error body |
| CoursesViews.QuizIdMismatch | backend/courses/views.py:78-81 | Any truthy `quiz_id` that `int()` reads as another id is refused with 400 `Quiz ID mismatch` before grading |
| CoursesViews.QuizService.Submit | backend/courses/views.py:65-150 | A refused submission returns its response and records nothing. A graded one records exactly one attempt (user, quiz, score, question count) and answers 200 with the grade. 200 iff an attempt was added |
| AccountsViews.FlatMessage | backend/accounts/views.py:43-47 | A list gives its first message, or `Invalid value` when it is empty; anything else gives its text |
| AccountsViews.FlattenErrors | backend/accounts/views.py:42-47 | One entry per field, in the serializer's field order, each with its flattened message; field names stay distinct |
| AccountsViews.ErrorsJson | backend/accounts/views.py:49-52 | The `errors` object has the fields in order, each mapped to its message |
| AccountsViews.TokensJson | backend/accounts/views.py:12-18 | The token object has exactly `refresh` then `access`, holding the two tokens |
| AccountsViews.RegisterView | backend/accounts/views.py:21-52 | 201 with user, tokens and `Registration successful`; 400 with the save error and `Registration failed`; 400 with exactly `errors` (flattened) and `Validation failed` |
| AccountsViews.LoginView | backend/accounts/views.py:55-80 | 200 with user, tokens and `Login successful`, or 400 with exactly `errors` (flattened) and `Login failed` |
| AxiosClient.Settle | frontend/src/utils/axiosClient.js:25 | A request resolves exactly on a 2xx reply, and with that reply; any other reply rejects with it |
| AxiosClient.ErrorMessage | frontend/src/pages/Quiz.jsx:90-91 | `error.message`: never empty for a rejected status; otherwise the transport or handler message |
| AxiosClient.ErrorMessageNamesStatus | frontend/src/pages/Quiz.jsx:90-91 | Two rejected statuses never share a message: the message names the status |
| AxiosClient.Authorized | frontend/src/utils/axiosClient.js:14-17 | A non-empty stored access token sets `Authorization: Bearer <token>`; otherwise the headers are untouched |
| AxiosClient.Client.AttachToken | frontend/src/utils/axiosClient.js:12-21 | The request interceptor leaves exactly the `Authorized` headers and does not touch `_retry` |
| AxiosClient.Client.Transmit | frontend/src/utils/axiosClient.js:12-21 | A request goes out with its headers and gets the server's next reply |
| AxiosClient.Client.PostRefresh | frontend/src/utils/axiosClient.js:42-45 | The refresh post carries `{refresh}` and no `Authorization` header |
| AxiosClient.Client.Request | frontend/src/utils/axiosClient.js:12-63 | At most two sends and one refresh. The first send carries the stored token. Without a first 401, the request settles as it came and nothing else changes. On a first 401 the handler's outcome is as below |
| AxiosClient.Client.OnError | frontend/src/utils/axiosClient.js:27-62 | Only a first 401 is handled. With no refresh token: clear the store, go to `/login`, reject the 401. If the refresh fails (a null body included): clear, go to `/login`, reject the refresh error. Otherwise only the access token changes and the request is replayed once with the new header. Any other error is rejected untouched |
| AuthContext.FirstValue | frontend/src/contexts/AuthContext.jsx:72 | `Object.values(data)[0]` exists exactly when the body has an entry, and it is the first entry's value |
| Text.ReplaceFirstSpec | frontend/src/contexts/AuthContext.jsx:59 | `replace('_', ' ')` changes exactly the first underscore, and nothing when there is none |
| Text.FieldLabelSpec | frontend/src/contexts/AuthContext.jsx:59 | The label keeps the length, upper-cases the first character and turns only the first underscore after it into a space |
| Text.FieldLabel | frontend/src/contexts/AuthContext.jsx:59 | The label of an `errors` field; what it keeps and changes is stated by `FieldLabelSpec` |
| Text.FieldLabelOfEmail | frontend/src/contexts/AuthContext.jsx:59 | `email` reads `Email` |
| Text.FieldLabelOfFirstName | frontend/src/contexts/AuthContext.jsx:108 | `first_name` reads `First name` |
| Text.FieldLabelOfNonPrefix | frontend/src/contexts/AuthContext.jsx:108 | Only the first underscore becomes a space: `non_` + rest reads `Non ` + rest, so `non_field_errors` reads `Non field_errors` |
| AuthContext.NormalizeError | frontend/src/contexts/AuthContext.jsx:52-79 | No body gives the default. Then come `errors` as `Label: value` pairs, then `message`. Undefined arises only from an empty `non_field_errors` or an empty first array. A message that is not the default always comes from a body |
| AuthContext.NonFieldErrorsThird | frontend/src/contexts/AuthContext.jsx:66-69 | Without `errors` and `message`, a truthy `non_field_errors` gives its first element, or itself when it is not an array |
| AuthContext.FirstValueLast | frontend/src/contexts/AuthContext.jsx:71-78 | Without `errors`, `message` and `non_field_errors`, the first value decides: an array gives its first element, a string gives itself, and anything else the default |
| AuthContext.DetailShown | frontend/src/contexts/AuthContext.jsx:71-78 | A body `{"detail": d}` shows `d` |
| AuthContext.FieldListShown | frontend/src/contexts/AuthContext.jsx:71-78 | A body holding only a field with a list of messages shows the first message |
| AuthContext.BackendErrorsShown | frontend/src/contexts/AuthContext.jsx:56-61 | The accounts views' `errors` body reaches the user as `Label: message` per field, in field order, joined by `, ` |
| AuthContext.OneFieldShown | frontend/src/contexts/AuthContext.jsx:56-61 | A single field error reads `Label: message` |
| AuthContext.BackendMessageShown | frontend/src/contexts/AuthContext.jsx:63-65 | A registration save failure (`{error, message}`) shows its `message` |
| AuthContext.Session.Authenticate | frontend/src/contexts/AuthContext.jsx:42-49 | With a token pair in the body: store both tokens, set the user, succeed. A body without tokens fails with the default message. A rejection fails with the normalised message. On failure the store and the user are untouched |
| AuthContext.Session.Login | frontend/src/contexts/AuthContext.jsx:40-86 | Posts `{email, password}` to `/api/login/`. It succeeds iff the response carries tokens; then `access_token` and `refresh_token` hold the response's `access` and `refresh`, the user is the response's `user`, and nothing else in storage changes. Failures carry `Login failed` or the normalised message and change nothing |
| AuthContext.Session.Signup | frontend/src/contexts/AuthContext.jsx:88-138 | Posts the user data to `/api/register/`. It succeeds iff the response carries tokens; then both tokens are stored from the response, the user is the response's `user`, and nothing else in storage changes. Failures carry `Registration failed` or the normalised message and change nothing |
| AuthContext.Session.Logout | frontend/src/contexts/AuthContext.jsx:140-144 | Exactly the two token keys are removed, and the user becomes null |
| Browser.LocalStorage.SetItem | frontend/src/contexts/AuthContext.jsx:45-46 | `setItem` overwrites one entry and keeps every other |
| Browser.LocalStorage.RemoveItem | frontend/src/contexts/AuthContext.jsx:141-142 | `removeItem` drops one entry, if present, and keeps every other |
| AuthContext.Session.FetchUser | frontend/src/contexts/AuthContext.jsx:28-38 | Requests `/api/user/`. On success it sets the user and leaves the store alone; on failure it logs out. Loading ends either way |
| AuthContext.Session.Startup | frontend/src/contexts/AuthContext.jsx:18-26 | With no stored access token, nothing is requested and only loading ends. Otherwise the user is fetched: a successful fetch sets the user to the response body and keeps storage; a failed fetch logs out |
| QuizPage.Ascending | frontend/src/pages/Quiz.jsx:59 | `Object.keys` of the answer map: one key per answered question, each of them an answered question id |
| QuizPage.AscendingOrder | frontend/src/pages/Quiz.jsx:59 | Every answered question id is enumerated, in strictly ascending order |
| Text.IntToStringInjective | frontend/src/pages/Quiz.jsx:60 | Distinct question ids give distinct `String(questionId)` keys |
| QuizPage.Formatted | frontend/src/pages/Quiz.jsx:58-61 | One payload member per answered question |
| QuizPage.FormatAnswers | frontend/src/pages/Quiz.jsx:58-61 | The `forEach` loop builds exactly `Formatted`: string keys in key order, and values that `parseInt` turns back into the choice ids |
| QuizPage.ParseIntJsonOfInt | frontend/src/pages/Quiz.jsx:60 | `parseInt(String(n))` gives `n` back |
| Text.JsParseIntRoundTrip | frontend/src/pages/Quiz.jsx:60 | `parseInt(String(n)) == n` for every integer |
| QuizPage.PayloadLookup | frontend/src/pages/Quiz.jsx:58-61 | Under each answered question's string id the payload holds the chosen choice id |
| QuizPage.PayloadKeys | frontend/src/pages/Quiz.jsx:58-61 | The payload's keys are exactly the answered question ids, both ways |
| QuizPage.Payload | frontend/src/pages/Quiz.jsx:63-68 | The posted body has `quiz_id` then `answers`; `quiz_id` is `parseInt(id)`, null when the id does not parse; `answers` is the formatted answer map |
| QuizPage.ServerReadsAnswer | frontend/src/pages/Quiz.jsx:58-68 | The submission endpoint reads back, for every question, the page's choice (nothing for an unanswered question or a choice id 0) |
| QuizPage.ServerAcceptsPayload | frontend/src/pages/Quiz.jsx:65-68 | For an existing quiz with questions, the page's payload passes every validation step of the endpoint, and the endpoint grades exactly the page's answers |
| QuizPage.GateMeansAllAnswered | frontend/src/pages/Quiz.jsx:50 | When answers are given only to the quiz's questions, passing the count gate means every question is answered |
| QuizPage.EnabledPassesGate | frontend/src/pages/Quiz.jsx:317 | When answers are given only to the quiz's questions, an enabled submit button always passes the count gate |
| QuizPage.Disabled | frontend/src/pages/Quiz.jsx:317 | The button is enabled exactly when not submitting, with at least one answer, and with no fewer answers than questions |
| QuizPage.QuestionCount | frontend/src/pages/Quiz.jsx:50-51 | `quiz?.questions?.length`: a count exactly when `questions` is an array or a string, and for an array it is the number of questions |
| QuizPage.GateMessage | frontend/src/pages/Quiz.jsx:50-51 | The message asking for every question; `GateMessageNamesCount` shows it names the count |
| QuizPage.GateMessageNamesCount | frontend/src/pages/Quiz.jsx:50-51 | Quizzes with different question counts get different gate messages |
| QuizPage.AnswerCount | frontend/src/pages/Quiz.jsx:37-42 | Answering adds a key only for a question not answered before |
| QuizPage.SubmitError | frontend/src/pages/Quiz.jsx:78-93 | The message for a failed submission is never empty (truthy) |
| QuizPage.SubmitErrorOfPlainBody | frontend/src/pages/Quiz.jsx:78-90 | A body without truthy `answers`, `quiz_id` and `detail` shows its `message` when truthy, else its whole `JSON.stringify` text |
| QuizPage.SubmitErrorOfFieldBody | frontend/src/pages/Quiz.jsx:78-91 | The first tiers in order: truthy `answers` gives `Invalid answers format: ` and its JSON; then truthy `quiz_id` gives `Invalid quiz ID: ` and its JSON; then truthy `detail` gives the detail; no body gives axios' status message |
| QuizPage.DetailShowsDetail | frontend/src/pages/Quiz.jsx:84-85 | A `{"detail": d}` body with non-empty `d` shows `d` |
| QuizPage.StringifyNotEmpty | frontend/src/pages/Quiz.jsx:89 | `JSON.stringify` of a body is never the empty string |
| Json.StringifyOneMember | frontend/src/pages/Quiz.jsx:89 | An object with one member prints as `{"key":value}` |
| Json.Stringify | frontend/src/pages/Quiz.jsx:89 | `JSON.stringify` without spacing; `StringifyNotEmpty` and `StringifyOneMember` state what it prints |
| Json.UnescapeEscape | frontend/src/pages/Quiz.jsx:89 | Reading back what `JSON.stringify` wrote for a string gives the string |
| QuizPage.RefusalShownRaw | frontend/src/pages/Quiz.jsx:78-90 | The endpoint's 400 refusals `{"error": m}` are shown as their raw JSON text |
| QuizPage.ServerFaultShowsMessage | frontend/src/pages/Quiz.jsx:86-87 | The endpoint's 500 body shows `Failed to process quiz submission` |
| QuizPage.ErrorAndMessageShowsMessage | frontend/src/pages/Quiz.jsx:86-87 | A body `{error, message}` with a non-empty message shows that message |
| QuizPage.UnansweredShowsMessage | frontend/src/pages/Quiz.jsx:91-93 | With no response, the error's own message is shown, or `Failed to submit quiz` when it is empty |
| QuizPage.QuizView.Open | frontend/src/pages/Quiz.jsx:17-35 | Without a user: go to `/login` and load nothing, leaving the quiz and the error as they were. Otherwise fetch `/api/quizzes/<id>/`, keep the quiz or show `Failed to load quiz`, and end loading. Answers and results are untouched |
| QuizPage.QuizView.AnswerChange | frontend/src/pages/Quiz.jsx:37-42 | Records the choice for the question; every other answer stays |
| QuizPage.QuizView.Submit | frontend/src/pages/Quiz.jsx:44-99 | A count mismatch shows the gate message and posts nothing. Otherwise the payload is posted to the submit path, and the results or the error message are set. `submitting` ends false |
| QuizPage.QuizView.Post | frontend/src/pages/Quiz.jsx:56-98 | Posts `{quiz_id, answers}`. Success sets the results and clears the error; failure sets the `SubmitError` message |
| QuizPage.QuizView.Reset | frontend/src/pages/Quiz.jsx:131-132 | Retake and close: the results are dropped and the answers cleared |
| Seqs.Lookup | frontend/src/pages/Signup.jsx:30 | The value read is held under the name; none is read exactly when no field has the name. The form's `formData.password` and Python's `dict.get` both use it |
| SignupPage.Assign | frontend/src/pages/Signup.jsx:19-24 | A spread update keeps the form's size for a known field and adds one for a new field |
| SignupPage.AssignField | frontend/src/pages/Signup.jsx:19-24 | After a change, the named field holds the new value and every other field is unchanged |
| SignupPage.AssignKeepsNames | frontend/src/pages/Signup.jsx:19-24 | A change keeps every field's position and name; fields with another name keep their value |
| SignupPage.FormJson | frontend/src/pages/Signup.jsx:38 | The posted object has the form's fields, in order |
| SignupPage.SignupView.Change | frontend/src/pages/Signup.jsx:19-24 | The input's field takes the new value |
| SignupPage.SignupView.Submit | frontend/src/pages/Signup.jsx:26-47 | Mismatched passwords show `Passwords do not match` and send nothing. Otherwise the whole form goes to `/api/register/`. Tokens in the response lead to `/dashboard`; otherwise the page shows the normalised message or `Registration failed`. With tokens the session stores both and takes the response's user; otherwise the session's storage and user stay as they were. The session's own loading flag is untouched. Loading ends |
| CoursesPage.Unwrap | frontend/src/pages/Courses.jsx:20 | `results` when truthy, else the body when truthy, else `[]`. A null body throws |
| CoursesPage.LoadError | frontend/src/pages/Courses.jsx:32-40 | The error shown is never empty, and is the offline message whenever no response came |
| CoursesPage.LoadErrorOfStatus | frontend/src/pages/Courses.jsx:32-40 | 404 and 500 get their fixed messages. Any other status shows `detail`, or the status message |
| CoursesPage.LevelColorsDistinct | frontend/src/pages/Courses.jsx:46-57 | The three levels get three distinct badges, none gray, and every other level is gray |
| CoursesPage.LevelColor | frontend/src/pages/Courses.jsx:46-57 | A badge is one of the four colours, and gray exactly for a level other than the three known ones |
| CoursesPage.CoursesView.Load | frontend/src/pages/Courses.jsx:14-44 | Requests `/api/courses/`. The unwrapped list is kept, with the setup hint when its `length` is 0 (an object's `length` member included). A null body or a failure only sets the error. Loading ends |
| CoursesPage.Length | frontend/src/pages/Courses.jsx:25 | `coursesData.length`: the size of an array or string, an object's own `length` member, and undefined for anything else |
| CoursesPage.ServerListShown | frontend/src/pages/Courses.jsx:20-27 | The back end's unpaginated array is shown as it is; the hint appears exactly when it is empty |
| CoursesPage.ObjectLengthRead | frontend/src/pages/Courses.jsx:20-27 | An object body without `results` is shown as it is, and a `length` member of 0 brings the hint |
| CoursesPage.EmptyPageShowsHint | frontend/src/pages/Courses.jsx:20-27 | A paginated page with an empty `results` unwraps to `[]` |
| PdfsPage.Shown | frontend/src/pages/PDFs.jsx:26-28 | `all` shows the whole list; any other filter shows the PDFs whose course equals the parsed filter |
| PdfsPage.ShownByCourse | frontend/src/pages/PDFs.jsx:26-28 | A numeric filter keeps, in order, exactly the PDFs of that course |
| PdfsPage.EmptyMessage | frontend/src/pages/PDFs.jsx:94-98 | An empty list says `No PDFs available yet.` exactly under `all`, and `No PDFs found for this filter.` under any other filter |
| PdfsPage.NonNumericFilterShowsNothing | frontend/src/pages/PDFs.jsx:28 | A filter that `parseInt` cannot read (NaN) shows nothing |
| PdfsPage.OnlyAllSelectable | frontend/src/pages/PDFs.jsx:56 | The menu offers only `all`, so the whole list is shown |
| PdfsPage.PdfsView.Load | frontend/src/pages/PDFs.jsx:14-24 | The body becomes the list, or `Failed to load PDFs`; loading ends |
| DashboardPage.FirstSix | frontend/src/pages/Dashboard.jsx:23 | `slice(0, 6)` keeps the first six items of an array or string; anything else throws |
| DashboardPage.ShownCourses | frontend/src/pages/Dashboard.jsx:18-31 | The dashboard's course list is an array or a string; a failed request or a body that cannot be unwrapped shows `[]` |
| DashboardPage.ShownQuizzes | frontend/src/pages/Dashboard.jsx:33-43 | The dashboard's quiz list is an array or a string; a failed request, or a body with no `slice`, shows `[]` |
| DashboardPage.CoursesAtMostSix | frontend/src/pages/Dashboard.jsx:18-31 | At most six courses are shown, a prefix of the server's array |
| DashboardPage.PaginationHandledForCoursesOnly | frontend/src/pages/Dashboard.jsx:22-23 | A paginated course list is cut from its `results`, but a paginated quiz list shows nothing |
| DashboardPage.QuizzesFirstSix | frontend/src/pages/Dashboard.jsx:36 | The quizzes shown are the first min(n, 6) of the server's array |
| DashboardPage.LevelColorAgreesOnLevels | frontend/src/pages/Dashboard.jsx:45-56 | The dashboard's badges agree with the course page's on the three levels only; other levels are primary |
| DashboardPage.LevelColor | frontend/src/pages/Dashboard.jsx:45-56 | A badge is primary exactly for a level other than the three known ones, and otherwise green, yellow or red |
| DashboardPage.GreetingName | frontend/src/pages/Dashboard.jsx:66 | The greeting always has a name |
| DashboardPage.GreetingFallbacks | frontend/src/pages/Dashboard.jsx:66 | First name, else user name, else `Coder` |
| DashboardPage.DashboardView.LoadCourses | frontend/src/pages/Dashboard.jsx:18-31 | Shows `ShownCourses`, and `[]` on failure; loading ends |
| DashboardPage.DashboardView.LoadQuizzes | frontend/src/pages/Dashboard.jsx:33-43 | Shows `ShownQuizzes`, and `[]` on failure; quiz loading ends |

## Left out

- CoursesViews.Score: the source computes the score as `int(correct / total * 100)` in
  floating point, which can be one below the integer percentage (29 of 100 gives 28).
  The model uses `correct * 100 / total` on integers. The bounds and extremes in
  `ScoreBounds` hold for both.
- JSON numbers are integers. Floats in a request body (an answer `2.5`, which `int()`
  truncates) are not modelled.
- The ORM is not modelled. Tables are sequences in their query order, and
  `Question`/`Choice` ordering is taken as given. Serializer output appears only where a
  view passes it through as a value.
- JWT minting and the timestamp of an attempt are not modelled. Tokens are parameters.
  The attempt id is the attempt table's row count after the insert, standing in for the
  database's primary key.
- `str(e)` of the exceptions the submission view catches is written out for the cases
  modelled: a missing quiz, a body that is not a dict, and `int()` failures. A
  database error has no counterpart.
- `user_view`, `quiz_detail_view`, the attempts view, `load_initial_data`, the admin,
  the URL configuration and the settings are not part of this model.
- The server is a script of replies, and the network, the base URL and the
  `Content-Type` header are not modelled. Navigation is a recorded path, and a page
  reload is a flag.
- In `AuthContext` and the pages, each request's outcome is a parameter. Composing them
  with `AxiosClient.Client.Request` is not modelled. Rendering, routing and console
  logging are not modelled either.
- The dashboard's two fetches run concurrently in the source; the model runs them one
  after the other, and they touch disjoint state.
- QuizPage.Ascending: `Object.keys` lists integer-like keys in ascending order. This is
  exact for question ids from 0 to 2^32 - 2. Larger or negative ids are listed in
  insertion order in JavaScript, which the model does not follow.
- Python `int()` underscores and non-ASCII digits are not modelled. Its stripping of
  white space follows `str.isspace`.
- Text.FieldLabel: `toUpperCase` is modelled for ASCII letters only. JavaScript also
  upper-cases other letters and can lengthen the text (`ß` becomes `SS`), so the
  "keeps the length" clause of `FieldLabelSpec` holds only for the modelled mapping.
- QuizPage.QuestionCount: `quiz?.questions?.length` on an object reads its `length`
  member in JavaScript. The model gives no count for an object, so such a quiz is
  blocked by the gate and its message says 0, where the page would compare the answer
  count with that member. The back end always sends `questions` as an array.
- CoursesPage.Length, QuizPage.QuestionCount and DashboardPage.FirstSix: JavaScript
  strings count and slice UTF-16 code units, and the model counts characters. They
  differ only for strings holding characters outside the Basic Multilingual Plane.
- CoursesViews.FaultText: the text inside `invalid literal for int() with base 10: '…'`
  is the string itself, always between single quotes. Python writes it with `repr`,
  which switches to double quotes for a text holding a single quote and escapes
  backslashes and control characters; that quoting is not modelled.
- Json.Get: an object with duplicate keys keeps the first, where `JSON.parse` would keep
  the last. Lone surrogates in strings are not modelled.
- CoursesViews.FromJson: a body with duplicate keys keeps every member, and
  CoursesViews.PyGet and CoursesViews.BodyField read the first of them, where Python's
  `json` keeps the last. Bodies with distinct keys, the only ones the front end sends,
  behave the same.
- Json.Entries: the members are listed in the order they were written. JavaScript's
  `Object.keys` and `Object.values` list integer-like keys first, in ascending order,
  and the other keys after them. So `AuthContext.ErrorsMessage`, `AuthContext.FirstValue`
  and `Json.Stringify` follow member order, which differs from the browser's only for
  bodies that mix integer-like keys with others or write them out of order.
- A PDF body that is not an array, which crashes the page's rendering, is not modelled.
- The other pages' mount effects are not modelled (only the quiz page's route guard is).
  `CourseDetail.jsx`, `Navbar.jsx` and `App.jsx` are not part of this model.

=== FILE: accounts_views.dfy ===
/**
 * The account endpoints: registration and login answer with the user, a token pair and a
 * message, or with the serializer's errors flattened to one message per field.
 */
module AccountsViews {
  import opened Wrappers
  import opened Json
  import opened Drf

  /** The value a serializer error dict holds for a field: a list of messages, or anything else. */
  datatype ErrorValue =
    | ErrList(messages: seq<string>)
    | ErrOther(text: string)   // a non-list value, carried as its `str()` form

  /** The keys of a dict are distinct. */
  predicate DistinctKeys<V>(d: seq<(string, V)>) {
    forall i, j :: 0 <= i < j < |d| ==> d[i].0 != d[j].0
  }

  /** The one message a field keeps: a list's first message, `Invalid value` for an empty list, or the value's text. */
  function FlatMessage(v: ErrorValue): (m: string)
    ensures v.ErrList? && |v.messages| > 0 ==> m == v.messages[0]
    ensures v.ErrList? && |v.messages| == 0 ==> m == "Invalid value"
    ensures v.ErrOther? ==> m == v.text
  {
    match v
    case ErrList(ms) => if |ms| > 0 then ms[0] else "Invalid value"
    case ErrOther(t) => t
  }

  /**
   * The loop over `serializer.errors.items()` that fills `errors`: the same fields, in the
   * same order, each with its one message.
   */
  method FlattenErrors(errs: seq<(string, ErrorValue)>) returns (out: seq<(string, string)>)
    requires DistinctKeys(errs)
    ensures |out| == |errs|
    ensures forall i :: 0 <= i < |out| ==> out[i] == (errs[i].0, FlatMessage(errs[i].1))
    ensures DistinctKeys(out)
  {
    out := [];
    for i := 0 to |errs|
      invariant |out| == i
      invariant forall k :: 0 <= k < i ==> out[k] == (errs[k].0, FlatMessage(errs[k].1))
    {
      var field, errorList := errs[i].0, errs[i].1;
      var message;
      if errorList.ErrList? {
        message := if |errorList.messages| > 0 then errorList.messages[0] else "Invalid value";
      } else {
        message := errorList.text;
      }
      out := out + [(field, message)];
    }
  }

  /** The flattened errors as the JSON object the response carries. */
  function ErrorsJson(flat: seq<(string, string)>): (j: Json)
    ensures j.Obj? && Keys(j.fields) == seq(|flat|, i requires 0 <= i < |flat| => flat[i].0)
    ensures forall i :: 0 <= i < |flat| ==> j.fields[i].1 == Str(flat[i].1)
  {
    Obj(seq(|flat|, i requires 0 <= i < |flat| => (flat[i].0, Str(flat[i].1))))
  }

  /** `get_tokens_for_user`: the token pair; minting the tokens is not modelled, they arrive as text. */
  function TokensJson(refresh: string, access: string): (j: Json)
    ensures j.Obj? && Keys(j.fields) == ["refresh", "access"]
    ensures Get(j.fields, "refresh") == Some(Str(refresh)) && Get(j.fields, "access") == Some(Str(access))
  {
    Obj([("refresh", Str(refresh)), ("access", Str(access))])
  }

  /** The token pair the JWT library issues for a user. */
  datatype Tokens = Tokens(refresh: string, access: string)

  /** Whether the serializer accepted the request, with its errors when it did not. */
  datatype Validation = Valid | Invalid(errors: seq<(string, ErrorValue)>)

  /**
   * `register_view`: 201 with the user, the tokens and `Registration successful`; 400 with
   * the save exception's text and `Registration failed`; 400 with the flattened errors and
   * `Validation failed`. `saved` is the outcome of `serializer.save()`: the serialized
   * user, or the text of the exception it raised.
   */
  method RegisterView(validation: Validation, saved: Result<Json, string>, tokens: Tokens) returns (resp: Response)
    requires validation.Invalid? ==> DistinctKeys(validation.errors)
    ensures validation.Valid? && saved.Ok? ==>
      resp == Response(201, Obj([("user", saved.value), ("tokens", TokensJson(tokens.refresh, tokens.access)),
                                 ("message", Str("Registration successful"))]))
    ensures validation.Valid? && saved.Err? ==>
      resp == Response(400, Obj([("error", Str(saved.error)), ("message", Str("Registration failed"))]))
    ensures validation.Invalid? ==> resp.status == 400 && resp.body.Obj?
    ensures validation.Invalid? ==> Keys(resp.body.fields) == ["errors", "message"]
    ensures validation.Invalid? ==> Get(resp.body.fields, "message") == Some(Str("Validation failed"))
    ensures validation.Invalid? ==> Get(resp.body.fields, "errors") == Some(ErrorsJson(Flattened(validation.errors)))
  {
    if validation.Valid? {
      if saved.Ok? {
        return Response(201, Obj([("user", saved.value), ("tokens", TokensJson(tokens.refresh, tokens.access)),
                                  ("message", Str("Registration successful"))]));
      }
      return Response(400, Obj([("error", Str(saved.error)), ("message", Str("Registration failed"))]));
    }
    var errors := FlattenErrors(validation.errors);
    assert errors == Flattened(validation.errors);
    return Response(400, Obj([("errors", ErrorsJson(errors)), ("message", Str("Validation failed"))]));
  }

  /**
   * `login_view`: 200 with the user, the tokens and `Login successful`, or 400 with the
   * flattened errors and `Login failed`. `user` is the serialized authenticated user.
   */
  method LoginView(validation: Validation, user: Json, tokens: Tokens) returns (resp: Response)
    requires validation.Invalid? ==> DistinctKeys(validation.errors)
    ensures validation.Valid? ==>
      resp == Response(200, Obj([("user", user), ("tokens", TokensJson(tokens.refresh, tokens.access)),
                                 ("message", Str("Login successful"))]))
    ensures validation.Invalid? ==> resp.status == 400 && resp.body.Obj?
    ensures validation.Invalid? ==> Keys(resp.body.fields) == ["errors", "message"]
    ensures validation.Invalid? ==> Get(resp.body.fields, "message") == Some(Str("Login failed"))
    ensures validation.Invalid? ==> Get(resp.body.fields, "errors") == Some(ErrorsJson(Flattened(validation.errors)))
  {
    if validation.Valid? {
      return Response(200, Obj([("user", user), ("tokens", TokensJson(tokens.refresh, tokens.access)),
                                ("message", Str("Login successful"))]));
    }
    var errors := FlattenErrors(validation.errors);
    assert errors == Flattened(validation.errors);
    return Response(400, Obj([("errors", ErrorsJson(errors)), ("message", Str("Login failed"))]));
  }

  /** The flattened errors as a value, for the lemmas and the front end's reading of them. */
  function Flattened(errs: seq<(string, ErrorValue)>): seq<(string, string)> {
    seq(|errs|, i requires 0 <= i < |errs| => (errs[i].0, FlatMessage(errs[i].1)))
  }
}

=== FILE: auth_context.dfy ===
/**
 * The authentication context of the front end: the signed-in user, the startup check,
 * login, signup and logout, and the chain that turns an error body into one message.
 *
 * The requests themselves go through the shared client; each operation here receives how
 * its request settled.
 */
module AuthContext {
  import opened Wrappers
  import opened Text
  import opened Json
  import opened Browser
  import opened AxiosClient
  import AccountsViews

  // ---------------------------------------------------------------------------
  // Error normalisation

  /** `Label: value` for one member of an `errors` object. */
  function FieldError(field: string, value: Json): string {
    FieldLabel(field) + ": " + ToJsString(value)
  }

  /** The `errors` branch: one `Label: value` per key, in key order, joined by `, `. */
  function ErrorsMessage(errors: Json): (s: string) {
    var es := Entries(errors);
    Join(seq(|es|, i requires 0 <= i < |es| => FieldError(es[i].0, es[i].1)), ", ")
  }

  /** `Object.values(v)[0]`. */
  function FirstValue(v: Json): (r: Option<Json>)
    ensures r.Some? <==> |Entries(v)| > 0
    ensures r.Some? ==> r.value == Entries(v)[0].1
  {
    var es := Entries(v);
    if |es| > 0 then Some(es[0].1) else None
  }

  /** `a[0]` on an array: undefined when it is empty. */
  function FirstItem(a: Json): Option<Json>
    requires a.Arr?
  {
    if |a.items| > 0 then Some(a.items[0]) else None
  }

  /**
   * The message `login` and `signup` report for a failed request, from the response body
   * (`error.response?.data`; None when there is no response). The priority is: the
   * `errors` object, then `message`, then `non_field_errors`, then the body's first value;
   * the default message when none applies. The result may be a value other than a string,
   * or undefined (None), exactly as in the source.
   */
  function NormalizeError(data: Option<Json>, default: string): (m: Option<Json>)
    ensures !JsTruthy(data) ==> m == Some(Str(default))
    ensures JsTruthy(data) && JsTruthy(Member(data.value, "errors")) ==>
      m == Some(Str(ErrorsMessage(Member(data.value, "errors").value)))
    ensures JsTruthy(data) && !JsTruthy(Member(data.value, "errors")) && JsTruthy(Member(data.value, "message")) ==>
      m == Member(data.value, "message")
    ensures m.None? ==> JsTruthy(data) && !JsTruthy(Member(data.value, "errors")) && !JsTruthy(Member(data.value, "message"))
    // undefined comes only from an empty `non_field_errors` array or an empty first array value
    ensures m.None? ==>
      var nonField := Member(data.value, "non_field_errors");
      if JsTruthy(nonField) then nonField.value == Arr([]) else FirstValue(data.value) == Some(Arr([]))
    ensures m.Some? && m.value.Str? && m.value.s != default ==> JsTruthy(data)
  {
    if !JsTruthy(data) then Some(Str(default))
    else
      var body := data.value;
      var errors := Member(body, "errors");
      var message := Member(body, "message");
      var nonField := Member(body, "non_field_errors");
      if JsTruthy(errors) then Some(Str(ErrorsMessage(errors.value)))
      else if JsTruthy(message) then message
      else if JsTruthy(nonField) then
        if nonField.value.Arr? then FirstItem(nonField.value) else nonField
      else
        var first := FirstValue(body);
        if first.Some? && first.value.Arr? then FirstItem(first.value)
        else if first.Some? && first.value.Str? then first
        else Some(Str(default))
  }

  /** `non_field_errors` is read only when neither `errors` nor `message` is set: its first element, or itself. */
  lemma NonFieldErrorsThird(fields: seq<(string, Json)>, default: string)
    requires !JsTruthy(Get(fields, "errors")) && !JsTruthy(Get(fields, "message"))
    requires JsTruthy(Get(fields, "non_field_errors"))
    ensures var v := Get(fields, "non_field_errors").value;
      NormalizeError(Some(Obj(fields)), default) == if v.Arr? then FirstItem(v) else Some(v)
  {
  }

  /**
   * The last tier, read only when `errors`, `message` and `non_field_errors` are all
   * unset: the body's first value, its first element when it is an array, itself when it
   * is a string; any other first value, or none, keeps the default.
   */
  lemma FirstValueLast(data: Json, default: string)
    requires JsTruthy(Some(data))
    requires !JsTruthy(Member(data, "errors")) && !JsTruthy(Member(data, "message"))
    requires !JsTruthy(Member(data, "non_field_errors"))
    ensures var first := FirstValue(data);
      && (first.Some? && first.value.Arr? ==> NormalizeError(Some(data), default) == FirstItem(first.value))
      && (first.Some? && first.value.Str? ==> NormalizeError(Some(data), default) == first)
      && (first.None? || (!first.value.Arr? && !first.value.Str?) ==> NormalizeError(Some(data), default) == Some(Str(default)))
  {
  }

  /** A DRF error body `{"detail": d}` shows `d`. */
  lemma DetailShown(d: string, default: string)
    ensures NormalizeError(Some(Obj([("detail", Str(d))])), default) == Some(Str(d))
  {
    var fields := [("detail", Str(d))];
    assert Keys(fields) == ["detail"];
    FirstValueLast(Obj(fields), default);
  }

  /** A DRF field error `{field: [m, ...]}` shows its first message `m`. */
  lemma FieldListShown(field: string, m: string, more: seq<Json>, default: string)
    requires field != "errors" && field != "message" && field != "non_field_errors"
    ensures NormalizeError(Some(Obj([(field, Arr([Str(m)] + more))])), default) == Some(Str(m))
  {
    var fields := [(field, Arr([Str(m)] + more))];
    assert Keys(fields) == [field];
    FirstValueLast(Obj(fields), default);
  }

  /**
   * The message shown for the back end's validation failure: with the errors flattened
   * to one message per field, each field reads `Label: message`, in field order.
   */
  lemma {:induction false} BackendErrorsShown(errs: seq<(string, AccountsViews.ErrorValue)>, message: string, default: string)
    ensures var flat := AccountsViews.Flattened(errs);
      var body := Obj([("errors", AccountsViews.ErrorsJson(flat)), ("message", Str(message))]);
      NormalizeError(Some(body), default) ==
        Some(Str(Join(seq(|errs|, i requires 0 <= i < |errs| =>
          FieldLabel(errs[i].0) + ": " + AccountsViews.FlatMessage(errs[i].1)), ", ")))
  {
    var flat := AccountsViews.Flattened(errs);
    var ej := AccountsViews.ErrorsJson(flat);
    var body := Obj([("errors", ej), ("message", Str(message))]);
    assert Member(body, "errors") == Some(ej);
    var es := Entries(ej);
    assert |es| == |errs|;
    var shown := seq(|es|, i requires 0 <= i < |es| => FieldError(es[i].0, es[i].1));
    var expected := seq(|errs|, i requires 0 <= i < |errs| =>
      FieldLabel(errs[i].0) + ": " + AccountsViews.FlatMessage(errs[i].1));
    forall i | 0 <= i < |errs| ensures shown[i] == expected[i] {
      assert es[i] == (errs[i].0, Str(AccountsViews.FlatMessage(errs[i].1)));
    }
    assert shown == expected;
  }

  /**
   * A single field with a single message reads `Label: message`; with `FieldLabelOfEmail`,
   * an `email` error `already taken` shows as `Email: already taken`.
   */
  lemma OneFieldShown(field: string, text: string, message: string, default: string)
    ensures var body := Obj([("errors", AccountsViews.ErrorsJson(AccountsViews.Flattened([(field, AccountsViews.ErrList([text]))]))),
                             ("message", Str(message))]);
      NormalizeError(Some(body), default) == Some(Str(FieldLabel(field) + ": " + text))
  {
    var errs := [(field, AccountsViews.ErrList([text]))];
    BackendErrorsShown(errs, message, default);
    var lines := seq(|errs|, i requires 0 <= i < |errs| =>
      FieldLabel(errs[i].0) + ": " + AccountsViews.FlatMessage(errs[i].1));
    assert lines == [FieldLabel(field) + ": " + text];
  }

  /** A failed save answers `{error, message}`: the message is what the user sees. */
  lemma BackendMessageShown(error: string, message: string, default: string)
    requires message != ""
    ensures NormalizeError(Some(Obj([("error", Str(error)), ("message", Str(message))])), default) == Some(Str(message))
  {
    var fields := [("error", Str(error)), ("message", Str(message))];
    assert fields[0].0 != "errors" && fields[1].0 != "errors" && fields[0].0 != "message";
    assert Get(fields, "errors").None?;
    assert Get(fields, "message") == Some(Str(message));
  }

  // ---------------------------------------------------------------------------
  // The session

  /** What `login` and `signup` resolve to; they never reject. */
  datatype AuthResult = Success | Failed(error: Option<Json>)

  /** A login or signup response that delivers a token pair: a body that is not null, whose `tokens` is neither missing nor null. */
  predicate HasTokens(outcome: Outcome) {
    && outcome.Resolved? && !outcome.data.Null?
    && Member(outcome.data, "tokens").Some? && !Member(outcome.data, "tokens").value.Null?
  }

  class Session {
    const storage: LocalStorage
    /** The React `user` state: `Some(Null)` is null, None is undefined. */
    var user: Option<Json>
    var loading: bool
    /** The requests the context made: path and body. */
    ghost var requests: seq<(string, Json)>

    constructor (storage: LocalStorage)
      ensures this.storage == storage && user == Some(Null) && loading && requests == []
    {
      this.storage := storage;
      user := Some(Null);
      loading := true;
      requests := [];
    }

    /**
     * What `login` and `signup` share: store the token pair, set the user and succeed;
     * or fail with the normalised message. A response body without `tokens` makes the
     * handler throw a TypeError, which has no response and so gives the default message.
     */
    method Authenticate(outcome: Outcome, default: string) returns (result: AuthResult)
      modifies this, storage
      ensures requests == old(requests) && loading == old(loading)
      ensures HasTokens(outcome) ==>
        var tokens := Member(outcome.data, "tokens").value;
        && result == Success
        && storage.items == old(storage.items)["access_token" := OptToJsString(Member(tokens, "access"))]
                                              ["refresh_token" := OptToJsString(Member(tokens, "refresh"))]
        && user == Member(outcome.data, "user")
      ensures outcome.Resolved? && !HasTokens(outcome) ==>
        result == Failed(Some(Str(default))) && storage.items == old(storage.items) && user == old(user)
      ensures outcome.Rejected? ==>
        result == Failed(NormalizeError(ResponseData(outcome.failure), default))
        && storage.items == old(storage.items) && user == old(user)
    {
      if outcome.Rejected? {
        return Failed(NormalizeError(ResponseData(outcome.failure), default));
      }
      var data := outcome.data;
      if data.Null? {
        return Failed(Some(Str(default)));
      }
      var tokens := Member(data, "tokens");
      if tokens.None? || tokens.value.Null? {
        return Failed(Some(Str(default)));
      }
      storage.SetItem("access_token", OptToJsString(Member(tokens.value, "access")));
      storage.SetItem("refresh_token", OptToJsString(Member(tokens.value, "refresh")));
      user := Member(data, "user");
      return Success;
    }

    /** `login(email, password)`: posts the credentials; the default message is `Login failed`. */
    method Login(email: string, password: string, outcome: Outcome) returns (result: AuthResult)
      modifies this, storage
      ensures requests == old(requests) + [("/api/login/", Obj([("email", Str(email)), ("password", Str(password))]))]
      ensures outcome.Rejected? ==> result == Failed(NormalizeError(ResponseData(outcome.failure), "Login failed"))
      ensures outcome.Resolved? && !HasTokens(outcome) ==> result == Failed(Some(Str("Login failed")))
      ensures result == Success <==> HasTokens(outcome)
      ensures outcome.Rejected? || result.Failed? ==> storage.items == old(storage.items) && user == old(user)
      ensures result == Success ==>
        var tokens := Member(outcome.data, "tokens").value;
        && storage.items == old(storage.items)["access_token" := OptToJsString(Member(tokens, "access"))]
                                              ["refresh_token" := OptToJsString(Member(tokens, "refresh"))]
        && user == Member(outcome.data, "user")
      ensures loading == old(loading)
    {
      requests := requests + [("/api/login/", Obj([("email", Str(email)), ("password", Str(password))]))];
      result := Authenticate(outcome, "Login failed");
    }

    /** `signup(userData)`: posts the form as it is; the default message is `Registration failed`. */
    method Signup(userData: Json, outcome: Outcome) returns (result: AuthResult)
      modifies this, storage
      ensures requests == old(requests) + [("/api/register/", userData)]
      ensures outcome.Rejected? ==> result == Failed(NormalizeError(ResponseData(outcome.failure), "Registration failed"))
      ensures outcome.Resolved? && !HasTokens(outcome) ==> result == Failed(Some(Str("Registration failed")))
      ensures result == Success <==> HasTokens(outcome)
      ensures outcome.Rejected? || result.Failed? ==> storage.items == old(storage.items) && user == old(user)
      ensures result == Success ==>
        var tokens := Member(outcome.data, "tokens").value;
        && storage.items == old(storage.items)["access_token" := OptToJsString(Member(tokens, "access"))]
                                              ["refresh_token" := OptToJsString(Member(tokens, "refresh"))]
        && user == Member(outcome.data, "user")
      ensures loading == old(loading)
    {
      requests := requests + [("/api/register/", userData)];
      result := Authenticate(outcome, "Registration failed");
    }

    /** `logout()`: removes exactly the two token keys and clears the user. */
    method Logout()
      modifies this, storage
      ensures storage.items == old(storage.items) - {"access_token", "refresh_token"}
      ensures user == Some(Null) && loading == old(loading) && requests == old(requests)
    {
      storage.RemoveItem("access_token");
      storage.RemoveItem("refresh_token");
      user := Some(Null);
    }

    /** `fetchUser()`: the user on success; a logout on failure; loading ends either way. */
    method FetchUser(outcome: Outcome)
      modifies this, storage
      ensures requests == old(requests) + [("/api/user/", Null)]
      ensures outcome.Resolved? ==> user == Some(outcome.data) && storage.items == old(storage.items)
      ensures outcome.Rejected? ==>
        user == Some(Null) && storage.items == old(storage.items) - {"access_token", "refresh_token"}
      ensures !loading
    {
      requests := requests + [("/api/user/", Null)];
      if outcome.Resolved? {
        user := Some(outcome.data);
      } else {
        Logout();
      }
      loading := false;
    }

    /**
     * The startup effect: with no stored access token, loading ends and no request is
     * made; otherwise the user is fetched. `outcome` is how that fetch would settle.
     */
    method Startup(outcome: Outcome)
      modifies this, storage
      ensures !loading
      ensures !Truthy(old(storage.Item("access_token"))) ==>
        requests == old(requests) && storage.items == old(storage.items) && user == old(user)
      ensures Truthy(old(storage.Item("access_token"))) ==> requests == old(requests) + [("/api/user/", Null)]
      ensures Truthy(old(storage.Item("access_token"))) && outcome.Resolved? ==>
        user == Some(outcome.data) && storage.items == old(storage.items)
      ensures Truthy(old(storage.Item("access_token"))) && outcome.Rejected? ==>
        user == Some(Null) && storage.items == old(storage.items) - {"access_token", "refresh_token"}
    {
      var token := storage.Item("access_token");
      if Truthy(token) {
        FetchUser(outcome);
      } else {
        loading := false;
      }
    }
  }
}

=== FILE: axios_client.dfy ===
/**
 * The shared HTTP client of the front end: a request interceptor that attaches the stored
 * access token, and a response interceptor that answers a first 401 by refreshing the
 * token once and replaying the request, or by clearing the store and sending the browser
 * to the login page.
 *
 * The server is a script: the replies it gives to the client's requests, in order, and
 * the replies it gives to refresh posts, in order. Once a script is used up, a request
 * gets no response (a network error).
 */
module AxiosClient {
  import opened Wrappers
  import opened Text
  import opened Json
  import opened Browser

  /** What one request got: a response with its status and parsed body, or none at all. */
  datatype Exchange =
    | Answered(status: int, data: Json)
    | Unanswered(message: string)

  /** axios settles a request successfully only on a 2xx status. */
  predicate Succeeded(e: Exchange) {
    e.Answered? && 200 <= e.status < 300
  }

  predicate Unauthorized(e: Exchange) {
    e.Answered? && e.status == 401
  }

  /** The error a rejected promise carries: an axios error with the exchange, or a TypeError thrown by the handler. */
  datatype Failure =
    | HttpError(exchange: Exchange)
    | TypeError(message: string)

  /** `error.response?.data`. */
  function ResponseData(f: Failure): Option<Json> {
    if f.HttpError? && f.exchange.Answered? then Some(f.exchange.data) else None
  }

  /**
   * `error.message`: axios words a rejected status as `Request failed with status code N`
   * and a missing response by its transport message; a TypeError carries its own text.
   */
  function ErrorMessage(f: Failure): (m: string)
    ensures f.HttpError? && f.exchange.Answered? ==> m != ""
    ensures !(f.HttpError? && f.exchange.Answered?) ==> m == if f.HttpError? then f.exchange.message else f.message
  {
    match f
    case HttpError(Answered(status, _)) => "Request failed with status code " + IntToString(status)
    case HttpError(Unanswered(message)) => message
    case TypeError(message) => message
  }

  /** The message of a rejected status names that status: two statuses never share one. */
  lemma ErrorMessageNamesStatus(a: int, b: int, dataA: Json, dataB: Json)
    ensures ErrorMessage(HttpError(Answered(a, dataA))) == ErrorMessage(HttpError(Answered(b, dataB))) ==> a == b
  {
    var p := "Request failed with status code ";
    var x, y := IntToString(a), IntToString(b);
    if p + x == p + y {
      assert x == (p + x)[|p|..];
      assert y == (p + y)[|p|..];
      IntToStringInjective(a, b);
    }
  }

  /** How a promise for a request settles. */
  datatype Outcome = Resolved(status: int, data: Json) | Rejected(failure: Failure)

  /** How axios settles a request with no interceptor involved. */
  function Settle(e: Exchange): (o: Outcome)
    ensures o.Resolved? <==> Succeeded(e)
    ensures o.Resolved? ==> e == Answered(o.status, o.data)
    ensures o.Rejected? ==> o.failure == HttpError(e)
  {
    if Succeeded(e) then Resolved(e.status, e.data) else Rejected(HttpError(e))
  }

  /** The next reply of a script; a used-up script answers with a network error. */
  function Next(script: seq<Exchange>): Exchange {
    if |script| > 0 then script[0] else Unanswered("Network Error")
  }

  function Rest(script: seq<Exchange>): seq<Exchange> {
    if |script| > 0 then script[1..] else []
  }

  /** The headers the request interceptor leaves on a request. */
  function Authorized(headers: map<string, string>, items: map<string, string>): (h: map<string, string>)
    ensures ("access_token" in items && items["access_token"] != "") ==>
      h == headers["Authorization" := "Bearer " + items["access_token"]]
    ensures !("access_token" in items && items["access_token"] != "") ==> h == headers
  {
    if "access_token" in items && items["access_token"] != "" then
      headers["Authorization" := "Bearer " + items["access_token"]]
    else headers
  }

  /** A post to the token refresh endpoint, as it goes out. */
  datatype RefreshPost = RefreshPost(headers: map<string, string>, body: Json)

  /** The message of the TypeError `response.data.access` throws when the refresh body is null. */
  const NullAccessMessage := "Cannot read properties of null (reading 'access')"

  /** The access token text the refresh stores: `String(response.data.access)`. */
  function RefreshedAccess(data: Json): string {
    OptToJsString(Member(data, "access"))
  }

  /** A request in flight: its headers and the `_retry` mark the interceptor sets. */
  class Config {
    var headers: map<string, string>
    var retry: bool

    constructor (headers: map<string, string>)
      ensures this.headers == headers && !retry
    {
      this.headers := headers;
      retry := false;
    }
  }

  class Client {
    const storage: LocalStorage
    /** `window.location.href` was set to `/login`. */
    var redirected: bool
    /** The server's replies to the client's requests, and to refresh posts. */
    var replies: seq<Exchange>
    var refreshReplies: seq<Exchange>
    /** The headers of every request sent through the client, and every refresh post. */
    ghost var sent: seq<map<string, string>>
    ghost var refreshPosts: seq<RefreshPost>

    constructor (storage: LocalStorage, replies: seq<Exchange>, refreshReplies: seq<Exchange>)
      ensures this.storage == storage && this.replies == replies && this.refreshReplies == refreshReplies
      ensures !redirected && sent == [] && refreshPosts == []
    {
      this.storage := storage;
      this.replies := replies;
      this.refreshReplies := refreshReplies;
      redirected := false;
      sent := [];
      refreshPosts := [];
    }

    /** The request interceptor: `Authorization = Bearer <token>` when an access token is stored, headers untouched otherwise. */
    method AttachToken(config: Config)
      modifies config
      ensures config.headers == Authorized(old(config.headers), storage.items)
      ensures config.retry == old(config.retry)
    {
      var token := storage.Item("access_token");
      if Truthy(token) {
        config.headers := config.headers["Authorization" := "Bearer " + token.value];
      }
    }

    /** The transport: the request goes out with its headers and the server's next reply comes back. */
    method Transmit(config: Config) returns (reply: Exchange)
      modifies this`replies, this`sent
      ensures reply == Next(old(replies)) && replies == Rest(old(replies))
      ensures sent == old(sent) + [config.headers]
    {
      reply := Next(replies);
      replies := Rest(replies);
      sent := sent + [config.headers];
    }

    /** `axios.post(token/refresh/, {refresh})`: the bare axios instance, so no interceptor and no Authorization header. */
    method PostRefresh(refreshToken: string) returns (reply: Exchange)
      modifies this`refreshReplies, this`refreshPosts
      ensures reply == Next(old(refreshReplies)) && refreshReplies == Rest(old(refreshReplies))
      ensures refreshPosts == old(refreshPosts) + [RefreshPost(map[], Obj([("refresh", Str(refreshToken))]))]
      ensures "Authorization" !in refreshPosts[|refreshPosts| - 1].headers
    {
      reply := Next(refreshReplies);
      refreshReplies := Rest(refreshReplies);
      refreshPosts := refreshPosts + [RefreshPost(map[], Obj([("refresh", Str(refreshToken))]))];
    }

    /**
     * `axiosClient(config)`: the request interceptor, the transport, then the response
     * interceptor. A success passes through. Only a 401 on a request not yet marked
     * `_retry` triggers the refresh; every other failure is rejected as it came.
     */
    method Request(config: Config) returns (outcome: Outcome)
      modifies this, storage, config
      decreases if config.retry then 0 else 1, 1
      // at most two sends and one refresh post; the first send carries the stored token
      ensures |old(sent)| < |sent| <= |old(sent)| + 2
      ensures sent[..|old(sent)| + 1] == old(sent) + [Authorized(old(config.headers), old(storage.items))]
      ensures |old(refreshPosts)| <= |refreshPosts| <= |old(refreshPosts)| + 1
      ensures config.retry == (old(config.retry) || Unauthorized(Next(old(replies))))
      // no refresh: the request settles as it came and nothing else changes
      ensures !(Unauthorized(Next(old(replies))) && !old(config.retry)) ==>
        && outcome == Settle(Next(old(replies)))
        && storage.items == old(storage.items) && redirected == old(redirected)
        && refreshPosts == old(refreshPosts) && |sent| == |old(sent)| + 1
      ensures Unauthorized(Next(old(replies))) && !old(config.retry) ==>
        Recovered(Next(old(replies)), Authorized(old(config.headers), old(storage.items)), old(storage.items), old(redirected), old(refreshPosts), old(sent) + [Authorized(old(config.headers), old(storage.items))], Rest(old(replies)), old(refreshReplies), outcome)
    {
      AttachToken(config);
      var reply := Transmit(config);
      if Succeeded(reply) {
        return Resolved(reply.status, reply.data);
      }
      outcome := OnError(config, reply);
    }

    /**
     * What the response interceptor's error handler does with a first 401, given the store,
     * the redirect flag, the logs and the scripts as they were when it started.
     */
    ghost predicate Recovered(error: Exchange, headers0: map<string, string>, items0: map<string, string>, redirected0: bool,
                              posts0: seq<RefreshPost>, sent0: seq<map<string, string>>,
                              replies0: seq<Exchange>, refreshReplies0: seq<Exchange>, outcome: Outcome)
      reads this, storage
    {
      var refreshToken := if "refresh_token" in items0 then Some(items0["refresh_token"]) else None;
      if !Truthy(refreshToken) then
        // no refresh token: clear everything, go to the login page, reject the original error
        && outcome == Rejected(HttpError(error))
        && storage.items == map[] && redirected
        && refreshPosts == posts0 && sent == sent0
      else
        var refreshReply := Next(refreshReplies0);
        && refreshPosts == posts0 + [RefreshPost(map[], Obj([("refresh", Str(refreshToken.value))]))]
        && if !Succeeded(refreshReply) || refreshReply.data.Null? then
             // the refresh failed: clear everything, go to the login page, reject the refresh error
             && outcome == (if Succeeded(refreshReply) then Rejected(TypeError(NullAccessMessage))
                            else Rejected(HttpError(refreshReply)))
             && storage.items == map[] && redirected
             && sent == sent0
           else
             // the refresh worked: only the access token changes, and the request is replayed once
             var access := RefreshedAccess(refreshReply.data);
             && storage.items == items0["access_token" := access]
             && redirected == redirected0
             && sent == sent0 + [headers0["Authorization" := "Bearer " + access]]
             && outcome == Settle(Next(replies0))
    }

    /** The response interceptor's error handler. */
    method OnError(config: Config, error: Exchange) returns (outcome: Outcome)
      modifies this, storage, config
      decreases if config.retry then 0 else 1, 0
      ensures |old(sent)| <= |sent| <= |old(sent)| + 1
      ensures sent[..|old(sent)|] == old(sent)
      ensures |old(refreshPosts)| <= |refreshPosts| <= |old(refreshPosts)| + 1
      ensures config.retry == (old(config.retry) || Unauthorized(error))
      ensures !(Unauthorized(error) && !old(config.retry)) ==>
        && outcome == Rejected(HttpError(error))
        && storage.items == old(storage.items) && redirected == old(redirected)
        && refreshPosts == old(refreshPosts) && sent == old(sent)
      ensures Unauthorized(error) && !old(config.retry) ==>
        Recovered(error, old(config.headers), old(storage.items), old(redirected), old(refreshPosts), old(sent), old(replies), old(refreshReplies), outcome)
    {
      if Unauthorized(error) && !config.retry {
        config.retry := true;
        var refreshToken := storage.Item("refresh_token");
        if !Truthy(refreshToken) {
          storage.Clear();
          redirected := true;
          return Rejected(HttpError(error));
        }
        var refreshReply := PostRefresh(refreshToken.value);
        if !Succeeded(refreshReply) {
          storage.Clear();
          redirected := true;
          return Rejected(HttpError(refreshReply));
        }
        if refreshReply.data.Null? {
          storage.Clear();
          redirected := true;
          return Rejected(TypeError(NullAccessMessage));
        }
        var access := RefreshedAccess(refreshReply.data);
        storage.SetItem("access_token", access);
        config.headers := config.headers["Authorization" := "Bearer " + access];
        // the replay: its promise is returned as it is, so its rejection is not caught here
        ghost var replayed := config.headers;
        assert Authorized(replayed, storage.items) == replayed;
        outcome := Request(config);
      } else {
        outcome := Rejected(HttpError(error));
      }
    }
  }
}

=== FILE: browser.dfy ===
/** The browser's `localStorage`: a string-to-string store shared by every script of the page. */
module Browser {
  import opened Wrappers

  class LocalStorage {
    var items: map<string, string>

    constructor ()
      ensures items == map[]
    {
      items := map[];
    }

    /** `getItem(key)`: the stored text, or None for `null`. */
    function Item(key: string): (v: Option<string>)
      reads this
      ensures v.Some? <==> key in items
      ensures v.Some? ==> v.value == items[key]
    {
      if key in items then Some(items[key]) else None
    }

    /** `setItem(key, value)`: overwrites one entry. */
    method SetItem(key: string, value: string)
      modifies this
      ensures items == old(items)[key := value]
    {
      items := items[key := value];
    }

    /** `removeItem(key)`: drops one entry, if present. */
    method RemoveItem(key: string)
      modifies this
      ensures items == old(items) - {key}
    {
      items := items - {key};
    }

    /** `clear()`: drops every entry. */
    method Clear()
      modifies this
      ensures items == map[]
    {
      items := map[];
    }
  }

  /** `if (value)` on what `getItem` returned: null and the empty string are falsy. */
  predicate Truthy(v: Option<string>) {
    v.Some? && v.value != ""
  }
}

=== FILE: courses_page.dfy ===
/**
 * The course list page: it unwraps the list from the response (paginated or not), warns
 * when the list is empty, and classifies a failed load into one message.
 */
module CoursesPage {
  import opened Wrappers
  import opened Json
  import opened AxiosClient

  /**
   * `response.data.results || response.data || []`. Reading `results` of a null body
   * throws, which is None here.
   */
  function Unwrap(data: Json): (r: Option<Json>)
    ensures r.None? <==> data.Null?
    ensures r.Some? && JsTruthy(Member(data, "results")) ==> r == Member(data, "results")
    ensures r.Some? && !JsTruthy(Member(data, "results")) && JsTruthy(Some(data)) ==> r == Some(data)
    ensures r.Some? && !JsTruthy(Member(data, "results")) && !JsTruthy(Some(data)) ==> r == Some(Arr([]))
  {
    if data.Null? then None
    else Some(JsOr(Member(data, "results"), JsOr(Some(data), Some(Arr([])))).value)
  }

  /**
   * `v.length`: the size of an array or a string, the `length` member of an object
   * (undefined when it has none), and undefined for a number or a boolean.
   */
  function Length(v: Json): (r: Option<Json>)
    ensures v.Arr? ==> r == Some(Num(|v.items|))
    ensures v.Str? ==> r == Some(Num(|v.s|))
    ensures v.Obj? ==> r == Member(v, "length")
    ensures v.Null? || v.Bool? || v.Num? ==> r.None?
  {
    match v
    case Arr(items) => Some(Num(|items|))
    case Str(s) => Some(Num(|s|))
    case Obj(_) => Member(v, "length")
    case _ => None
  }

  const EmptyHint := "No courses available. Please run: python manage.py load_initial_data"
  const NotFoundMessage := "API endpoint not found. Check backend URL and routes."
  const ServerErrorMessage := "Backend server error. Check Django terminal for details."
  const OfflineMessage := "Cannot connect to backend. Make sure Django server is running on http://localhost:8000"

  /** The TypeError that reading `results` of a null body throws. */
  const NullResultsError := TypeError("Cannot read properties of null (reading 'results')")

  /**
   * The message for a failed load: by status 404 or 500, then by the absence of any
   * response, then the body's `detail`, the error's message, or `Failed to load courses.`.
   */
  function LoadError(f: Failure): (e: Json)
    ensures JsTruthy(Some(e))
    ensures ResponseData(f).None? ==> e == Str(OfflineMessage)
  {
    var response := if f.HttpError? && f.exchange.Answered? then Some(f.exchange) else None;
    if response.Some? && response.value.status == 404 then Str(NotFoundMessage)
    else if response.Some? && response.value.status == 500 then Str(ServerErrorMessage)
    else if response.None? then Str(OfflineMessage)
    else
      var detail := Member(response.value.data, "detail");
      if JsTruthy(detail) then detail.value
      else if ErrorMessage(f) != "" then Str(ErrorMessage(f))
      else Str("Failed to load courses.")
  }

  /**
   * A response with status 404 or 500 gets its fixed message; any other status shows the
   * body's `detail` when there is one, else the axios message for the status.
   */
  lemma LoadErrorOfStatus(status: int, data: Json)
    ensures status == 404 ==> LoadError(HttpError(Answered(status, data))) == Str(NotFoundMessage)
    ensures status == 500 ==> LoadError(HttpError(Answered(status, data))) == Str(ServerErrorMessage)
    ensures status != 404 && status != 500 ==>
      LoadError(HttpError(Answered(status, data)))
        == if JsTruthy(Member(data, "detail")) then Member(data, "detail").value
           else Str("Request failed with status code " + Text.IntToString(status))
  {
  }

  const Green := "bg-green-100 dark:bg-green-900 text-green-800 dark:text-green-200"
  const Yellow := "bg-yellow-100 dark:bg-yellow-900 text-yellow-800 dark:text-yellow-200"
  const Red := "bg-red-100 dark:bg-red-900 text-red-800 dark:text-red-200"
  const Gray := "bg-gray-100 dark:bg-gray-700 text-gray-800 dark:text-gray-200"

  /** `getLevelColor`: the classes of a course level's badge. */
  function LevelColor(level: string): (c: string)
    ensures c in {Green, Yellow, Red, Gray}
    ensures c == Gray <==> level !in {"beginner", "intermediate", "advanced"}
  {
    assert |Red| < |Gray| < |Green| < |Yellow|;
    if level == "beginner" then Green
    else if level == "intermediate" then Yellow
    else if level == "advanced" then Red
    else Gray
  }

  /** The three levels have distinct colours, none of them gray, and every other level is gray. */
  lemma LevelColorsDistinct(level: string)
    ensures LevelColor("beginner") != LevelColor("intermediate")
    ensures LevelColor("beginner") != LevelColor("advanced")
    ensures LevelColor("intermediate") != LevelColor("advanced")
    ensures level in {"beginner", "intermediate", "advanced"} <==> LevelColor(level) != Gray
  {
    // the four class lists differ in length
    assert |Red| < |Gray| < |Green| < |Yellow|;
  }

  class CoursesView {
    var courses: Json
    var loading: bool
    var error: Json
    ghost var requests: seq<string>

    constructor ()
      ensures courses == Arr([]) && loading && error == Str("") && requests == []
    {
      courses := Arr([]);
      loading := true;
      error := Str("");
      requests := [];
    }

    /**
     * `fetchCourses`: the unwrapped list is stored, with the setup hint as the error when
     * it is empty; a failure (a null body included) only sets the error; loading ends.
     */
    method Load(outcome: Outcome)
      modifies this
      ensures requests == old(requests) + ["/api/courses/"] && !loading
      ensures outcome.Resolved? && !outcome.data.Null? ==>
        && Some(courses) == Unwrap(outcome.data)
        && error == (if Length(courses) == Some(Num(0)) then Str(EmptyHint) else old(error))
      ensures outcome.Resolved? && outcome.data.Null? ==> courses == old(courses) && error == Str(OfflineMessage)
      ensures outcome.Rejected? ==> courses == old(courses) && error == LoadError(outcome.failure)
    {
      requests := requests + ["/api/courses/"];
      if outcome.Resolved? {
        var coursesData := Unwrap(outcome.data);
        if coursesData.None? {
          error := LoadError(NullResultsError);
        } else {
          courses := coursesData.value;
          if Length(courses) == Some(Num(0)) {
            error := Str(EmptyHint);
          }
        }
      } else {
        error := LoadError(outcome.failure);
      }
      loading := false;
    }
  }

  /** The back end's list (an array, no pagination) is shown as it is; an empty one brings the setup hint. */
  lemma ServerListShown(items: seq<Json>)
    ensures Unwrap(Arr(items)) == Some(Arr(items))
    ensures Length(Arr(items)) == Some(Num(0)) <==> items == []
  {
  }

  /**
   * A body that is an object with no `results` is shown as it is, and its `length`
   * member decides the setup hint, as `coursesData.length === 0` does.
   */
  lemma ObjectLengthRead(fields: seq<(string, Json)>)
    requires "results" !in Keys(fields)
    requires Get(fields, "length") == Some(Num(0))
    ensures Unwrap(Obj(fields)) == Some(Obj(fields))
    ensures Length(Obj(fields)) == Some(Num(0))
  {
  }

  /** A paginated page with an empty `results` array shows the hint too: the empty array is truthy. */
  lemma EmptyPageShowsHint(rest: seq<(string, Json)>)
    ensures Unwrap(Obj([("results", Arr([]))] + rest)) == Some(Arr([]))
  {
    assert Get([("results", Arr([]))] + rest, "results") == Some(Arr([]));
  }
}

=== FILE: courses_views.dfy ===
/**
 * The course back end: the active/course filters of the list endpoints, the course lookup
 * by slug, and the quiz submission endpoint, which validates the request, grades the
 * answers, records one attempt and returns a per-question review.
 *
 * Database tables are sequences in their query order; `quiz.questions.all()` and
 * `question.choices` are the sequences a Quiz and a Question carry, already in the
 * (order, id) order of their model's Meta.
 */
module CoursesViews {
  import opened Wrappers
  import opened Text
  import opened Json
  import opened Seqs
  import opened Drf

  datatype Course = Course(id: int, slug: string, title: string, level: string, isActive: bool)

  datatype Pdf = Pdf(id: int, title: string, courseId: Option<int>, isActive: bool)

  datatype Choice = Choice(id: int, text: string, isCorrect: bool)

  datatype Question = Question(id: int, text: string, order: int, choices: seq<Choice>)

  datatype Quiz = Quiz(
    id: int, title: string, courseId: Option<int>,
    timeLimit: int, passingScore: int, isActive: bool,
    questions: seq<Question>)

  /** A row of the QuizAttempt table (its timestamp is not modelled). */
  datatype Attempt = Attempt(user: int, quiz: int, score: int, totalQuestions: int)

  // ---------------------------------------------------------------------------
  // List endpoints

  /** `CourseViewSet.queryset`: the active courses. */
  function ActiveCourses(courses: seq<Course>): (r: seq<Course>)
    ensures forall i :: 0 <= i < |r| ==> r[i] in courses && r[i].isActive
    ensures forall i :: 0 <= i < |courses| && courses[i].isActive ==> courses[i] in r
  {
    Filter(courses, (c: Course) => c.isActive)
  }

  /** `CourseViewSet` retrieve by `lookup_field = 'slug'`: the active course with that slug, or 404. */
  function CourseBySlug(courses: seq<Course>, slug: string): (r: Option<Course>)
    ensures r.Some? ==> r.value in courses && r.value.isActive && r.value.slug == slug
    ensures r.None? ==> forall i :: 0 <= i < |courses| ==> !(courses[i].isActive && courses[i].slug == slug)
  {
    if |courses| == 0 then None
    else if courses[0].isActive && courses[0].slug == slug then Some(courses[0])
    else CourseBySlug(courses[1..], slug)
  }

  /** The exception a queryset filter `course_id=<text>` raises on a non-numeric text. */
  datatype FilterError = NotANumber(text: string)

  /**
   * The shared shape of `pdf_list_view` and `quiz_list_view`: the active rows, and when the
   * `course` query parameter is a non-empty text, only those whose course is that number.
   */
  function ActiveForCourse<T>(rows: seq<T>, isActive: T -> bool, course: T -> Option<int>, param: Option<string>)
    : (r: Result<seq<T>, FilterError>)
    ensures (param.None? || param.value == "") ==> r == Ok(Filter(rows, isActive))
    ensures r.Ok? ==> forall i :: 0 <= i < |r.value| ==> r.value[i] in rows && isActive(r.value[i])
    ensures r.Ok? && param.Some? && param.value != "" ==>
      forall i :: 0 <= i < |r.value| ==> course(r.value[i]) == PyIntOfString(param.value)
    ensures r.Ok? && param.Some? && param.value != "" ==>
      forall i :: 0 <= i < |rows| && isActive(rows[i]) && course(rows[i]) == PyIntOfString(param.value) ==> rows[i] in r.value
    ensures r.Err? <==> param.Some? && param.value != "" && PyIntOfString(param.value).None?
  {
    var active := Filter(rows, isActive);
    if param.Some? && param.value != "" then
      var n := PyIntOfString(param.value);
      if n.None? then Err(NotANumber(param.value))
      else
        var r := Filter(active, (x: T) => course(x) == Some(n.value));
        assert forall i :: 0 <= i < |rows| && isActive(rows[i]) && course(rows[i]) == n ==> rows[i] in r by {
          forall i | 0 <= i < |rows| && isActive(rows[i]) && course(rows[i]) == n ensures rows[i] in r {
            var k :| 0 <= k < |active| && active[k] == rows[i];
          }
        }
        Ok(r)
    else Ok(active)
  }

  /** `pdf_list_view`: the active PDFs, of the course named by a non-empty `course` parameter when there is one. */
  function PdfList(pdfs: seq<Pdf>, param: Option<string>): (r: Result<seq<Pdf>, FilterError>)
    ensures r.Err? <==> param.Some? && param.value != "" && PyIntOfString(param.value).None?
    ensures r.Ok? ==> forall i :: 0 <= i < |r.value| ==> r.value[i] in pdfs && r.value[i].isActive
    ensures r.Ok? && param.Some? && param.value != "" ==>
      forall i :: 0 <= i < |r.value| ==> r.value[i].courseId == PyIntOfString(param.value)
    ensures r.Ok? && (param.None? || param.value == "") ==>
      forall i :: 0 <= i < |pdfs| && pdfs[i].isActive ==> pdfs[i] in r.value
    ensures r.Ok? && param.Some? && param.value != "" ==>
      forall i :: 0 <= i < |pdfs| && pdfs[i].isActive && pdfs[i].courseId == PyIntOfString(param.value) ==> pdfs[i] in r.value
  {
    ActiveForCourse(pdfs, (p: Pdf) => p.isActive, (p: Pdf) => p.courseId, param)
  }

  /** `quiz_list_view`: the active quizzes, of the course named by a non-empty `course` parameter when there is one. */
  function QuizList(quizzes: seq<Quiz>, param: Option<string>): (r: Result<seq<Quiz>, FilterError>)
    ensures r.Err? <==> param.Some? && param.value != "" && PyIntOfString(param.value).None?
    ensures r.Ok? ==> forall i :: 0 <= i < |r.value| ==> r.value[i] in quizzes && r.value[i].isActive
    ensures r.Ok? && param.Some? && param.value != "" ==>
      forall i :: 0 <= i < |r.value| ==> r.value[i].courseId == PyIntOfString(param.value)
    ensures r.Ok? && (param.None? || param.value == "") ==>
      forall i :: 0 <= i < |quizzes| && quizzes[i].isActive ==> quizzes[i] in r.value
    ensures r.Ok? && param.Some? && param.value != "" ==>
      forall i :: 0 <= i < |quizzes| && quizzes[i].isActive && quizzes[i].courseId == PyIntOfString(param.value) ==> quizzes[i] in r.value
  {
    ActiveForCourse(quizzes, (q: Quiz) => q.isActive, (q: Quiz) => q.courseId, param)
  }

  /** A PDF or quiz without a course never appears in a course-filtered list. */
  lemma PdfListSkipsUncoursed(pdfs: seq<Pdf>, param: string)
    requires param != ""
    ensures PdfList(pdfs, Some(param)).Ok? ==>
      forall i :: 0 <= i < |PdfList(pdfs, Some(param)).value| ==> PdfList(pdfs, Some(param)).value[i].courseId.Some?
  {
  }

  // ---------------------------------------------------------------------------
  // Exceptions inside the submission handler

  /** An exception the handler catches, turning it into a 500 response. */
  datatype Fault =
    | QuizNotFound                   // Http404 raised by get_object_or_404
    | NoGetAttribute(typeName: string) // `request.data.get` on a body that is not a dict
    | IntLiteral(text: string)       // ValueError from int() on a non-numeric string
    | IntType(typeName: string)      // TypeError from int() on a list, a dict or None

  /** Python's type name for a JSON value. */
  function PyTypeName(v: Json): string {
    match v
    case Null => "NoneType"
    case Bool(_) => "bool"
    case Num(_) => "int"
    case Str(_) => "str"
    case Arr(_) => "list"
    case Obj(_) => "dict"
  }

  /** `str(e)` for each fault. */
  function FaultText(f: Fault): string {
    match f
    case QuizNotFound => "No Quiz matches the given query."
    case NoGetAttribute(t) => "'" + t + "' object has no attribute 'get'"
    case IntLiteral(s) => "invalid literal for int() with base 10: '" + s + "'"
    case IntType(t) => "int() argument must be a string, a bytes-like object or a real number, not '" + t + "'"
  }

  /** Python's `int(v)` on a value decoded from the JSON body. */
  function PyInt(v: Json): (r: Result<int, Fault>)
    ensures v.Num? ==> r == Ok(v.n)
    ensures v.Bool? ==> r == Ok(if v.b then 1 else 0)
    ensures v.Str? ==> (r.Ok? <==> PyIntOfString(v.s).Some?)
    ensures v.Str? && r.Ok? ==> Some(r.value) == PyIntOfString(v.s)
    ensures v.Str? && r.Err? ==> r.error == IntLiteral(v.s)
    ensures v.Null? || v.Arr? || v.Obj? ==> r == Err(IntType(PyTypeName(v)))
  {
    match v
    case Num(n) => Ok(n)
    case Bool(b) => Ok(if b then 1 else 0)
    case Str(s) => if PyIntOfString(s).Some? then Ok(PyIntOfString(s).value) else Err(IntLiteral(s))
    case _ => Err(IntType(PyTypeName(v)))
  }

  function BadRequest(message: string): Response {
    Response(400, Obj([("error", Str(message))]))
  }

  function ServerError(f: Fault): Response {
    Response(500, Obj([("error", Str(FaultText(f))), ("message", Str("Failed to process quiz submission"))]))
  }

  // ---------------------------------------------------------------------------
  // Validation

  /** `get_object_or_404(Quiz, pk=pk, is_active=True)`. */
  function FindQuiz(quizzes: seq<Quiz>, pk: int): (r: Option<Quiz>)
    ensures r.Some? ==> r.value in quizzes && r.value.id == pk && r.value.isActive
    ensures r.None? ==> forall i :: 0 <= i < |quizzes| ==> !(quizzes[i].id == pk && quizzes[i].isActive)
  {
    if |quizzes| == 0 then None
    else if quizzes[0].id == pk && quizzes[0].isActive then Some(quizzes[0])
    else FindQuiz(quizzes[1..], pk)
  }

  /** The value of `request.data.get(key)` (None for a missing key and for JSON null alike). */
  function BodyField(fields: seq<(string, Json)>, key: string): Option<Json> {
    var v := Get(fields, key);
    if v == Some(Null) then None else v
  }

  /**
   * Everything the handler checks before grading, in its order: the quiz lookup, the body
   * being a dict, the `quiz_id` match (skipped when `quiz_id` is falsy), `answers` being a
   * dict (an absent one is the empty dict), and the quiz having questions. On success it
   * gives the quiz and the answer dict.
   */
  function Validate(quizzes: seq<Quiz>, pk: int, body: Json): (r: Result<(Quiz, PyDict), Response>)
    ensures FindQuiz(quizzes, pk).None? ==> r == Err(ServerError(QuizNotFound))
    ensures r.Ok? ==> Some(r.value.0) == FindQuiz(quizzes, pk) && |r.value.0.questions| > 0
    ensures r.Ok? ==> body.Obj?
    ensures r.Ok? ==> var a := Get(body.fields, "answers");
      (a.None? && r.value.1 == []) || (a.Some? && a.value.Obj? && r.value.1 == FromJson(a.value.fields))
    ensures r.Ok? ==> var q := BodyField(body.fields, "quiz_id"); q.None? || !PyTruthy(q.value) || PyInt(q.value) == Ok(pk)
    ensures r.Err? ==> r.error.status == 400 || r.error.status == 500
  {
    var quiz := FindQuiz(quizzes, pk);
    if quiz.None? then Err(ServerError(QuizNotFound))
    else if !body.Obj? then Err(ServerError(NoGetAttribute(PyTypeName(body))))
    else
      var quizId := BodyField(body.fields, "quiz_id");
      var mismatch :=
        if quizId.Some? && PyTruthy(quizId.value) then
          match PyInt(quizId.value)
          case Err(f) => Some(ServerError(f))
          case Ok(n) => if n != pk then Some(BadRequest("Quiz ID mismatch")) else None
        else None;
      if mismatch.Some? then Err(mismatch.value)
      else
        var answers := Get(body.fields, "answers").GetOr(Obj([]));
        if !answers.Obj? then Err(BadRequest("Answers must be a dictionary"))
        else if |quiz.value.questions| == 0 then Err(BadRequest("Quiz has no questions"))
        else Ok((quiz.value, FromJson(answers.fields)))
  }

  // ---------------------------------------------------------------------------
  // Grading one question

  /** A Python dictionary key the handler looks answers up by: a `str` or an `int`. */
  datatype PyKey = StrKey(s: string) | IntKey(i: int)

  /** A Python dictionary, its items in insertion order. */
  type PyDict = seq<(PyKey, Json)>

  /** `d.get(key)`. */
  function PyGet(d: PyDict, key: PyKey): (r: Option<Json>)
    ensures r.Some? ==> (key, r.value) in d
    ensures r.None? ==> forall i :: 0 <= i < |d| ==> d[i].0 != key
  {
    Lookup(d, key)
  }

  /** The dictionary the JSON parser builds from an object: every key is a `str`. */
  function FromJson(fields: seq<(string, Json)>): (d: PyDict)
    ensures |d| == |fields|
    ensures forall i :: 0 <= i < |d| ==> d[i] == (StrKey(fields[i].0), fields[i].1)
  {
    seq(|fields|, i requires 0 <= i < |fields| => (StrKey(fields[i].0), fields[i].1))
  }

  /**
   * `answers.get(str(question.id)) or answers.get(question.id)`, kept only when truthy
   * (the handler goes on only `if choice_id`).
   */
  function AnswerValue(answers: PyDict, questionId: int): (r: Option<Json>)
    ensures r.Some? ==> PyTruthy(r.value)
    ensures r.Some? ==> r == PyGet(answers, StrKey(IntToString(questionId))) || r == PyGet(answers, IntKey(questionId))
    ensures var v := PyGet(answers, StrKey(IntToString(questionId)));
      v.Some? && PyTruthy(v.value) ==> r == v
    ensures var v := PyGet(answers, StrKey(IntToString(questionId)));
      var w := PyGet(answers, IntKey(questionId));
      !(v.Some? && PyTruthy(v.value)) && w.Some? && PyTruthy(w.value) ==> r == w
    ensures var v := PyGet(answers, StrKey(IntToString(questionId)));
      var w := PyGet(answers, IntKey(questionId));
      r.None? <==> !(v.Some? && PyTruthy(v.value)) && !(w.Some? && PyTruthy(w.value))
  {
    var byString := PyGet(answers, StrKey(IntToString(questionId)));
    if byString.Some? && PyTruthy(byString.value) then byString
    else
      var byInt := PyGet(answers, IntKey(questionId));
      if byInt.Some? && PyTruthy(byInt.value) then byInt else None
  }

  /**
   * An answer dict decoded from a JSON body has only `str` keys, so the integer-key
   * fallback never finds anything: the answer is the string-key value when it is truthy.
   */
  lemma JsonAnswersUseStringKeys(fields: seq<(string, Json)>, questionId: int)
    ensures PyGet(FromJson(fields), IntKey(questionId)).None?
    ensures var v := Get(fields, IntToString(questionId));
      AnswerValue(FromJson(fields), questionId) == if v.Some? && PyTruthy(v.value) then v else None
  {
    var d := FromJson(fields);
    var key := IntToString(questionId);
    GetFromJson(fields, key);
  }

  /** Looking a string key up in the decoded dict is looking it up in the JSON object. */
  lemma {:induction false} GetFromJson(fields: seq<(string, Json)>, key: string)
    ensures PyGet(FromJson(fields), StrKey(key)) == Get(fields, key)
  {
    if |fields| > 0 {
      GetFromJson(fields[1..], key);
      assert FromJson(fields)[1..] == FromJson(fields[1..]);
    }
  }

  /** `Choice.objects.filter(id=choice_id, question=question).first()`. */
  function FindChoice(choices: seq<Choice>, id: int): (r: Option<Choice>)
    ensures r.Some? ==> r.value in choices && r.value.id == id
    ensures r.None? ==> forall i :: 0 <= i < |choices| ==> choices[i].id != id
  {
    if |choices| == 0 then None
    else if choices[0].id == id then Some(choices[0])
    else FindChoice(choices[1..], id)
  }

  /** The choice of this question the user picked: Ok(None) when unanswered or foreign, Err when `int()` raises. */
  function ChosenChoice(q: Question, answers: PyDict): Result<Option<Choice>, Fault> {
    var v := AnswerValue(answers, q.id);
    if v.None? then Ok(None)
    else
      match PyInt(v.value)
      case Err(f) => Err(f)
      case Ok(id) => Ok(FindChoice(q.choices, id))
  }

  /** The question counts towards `correct_count`. */
  predicate Scores(q: Question, answers: PyDict) {
    var c := ChosenChoice(q, answers);
    c.Ok? && c.value.Some? && c.value.value.isCorrect
  }

  /** `question.choices.filter(is_correct=True).first()`. */
  function FirstCorrect(choices: seq<Choice>): (r: Option<Choice>)
    ensures r.Some? ==> r.value in choices && r.value.isCorrect
    ensures r.None? ==> forall i :: 0 <= i < |choices| ==> !choices[i].isCorrect
  {
    if |choices| == 0 then None
    else if choices[0].isCorrect then Some(choices[0])
    else FirstCorrect(choices[1..])
  }

  /** The correct answer shown is the first correct choice: every choice before it is wrong. */
  lemma {:induction false} FirstCorrectIsFirst(choices: seq<Choice>)
    requires FirstCorrect(choices).Some?
    ensures exists i :: 0 <= i < |choices| && choices[i] == FirstCorrect(choices).value
                        && forall k :: 0 <= k < i ==> !choices[k].isCorrect
  {
    if !choices[0].isCorrect {
      FirstCorrectIsFirst(choices[1..]);
      var i :| 0 <= i < |choices[1..]| && choices[1..][i] == FirstCorrect(choices).value
               && forall k :: 0 <= k < i ==> !choices[1..][k].isCorrect;
      assert choices[i + 1] == FirstCorrect(choices).value;
      forall k | 0 <= k < i + 1 ensures !choices[k].isCorrect {
        if k > 0 {
          assert choices[k] == choices[1..][k - 1];
        }
      }
    } else {
      assert choices[0] == FirstCorrect(choices).value;
    }
  }

  // ---------------------------------------------------------------------------
  // Grading a quiz

  /** No question's answer makes `int()` raise. */
  predicate AllChosen(qs: seq<Question>, answers: PyDict) {
    forall i :: 0 <= i < |qs| ==> ChosenChoice(qs[i], answers).Ok?
  }

  /** The choice a question is graded against (None for an unanswered or foreign answer). */
  function Picked(q: Question, answers: PyDict): Option<Choice> {
    var c := ChosenChoice(q, answers);
    if c.Ok? then c.value else None
  }

  /** The exception the grading loop stops at, if any: the fault of the first question whose answer does not convert. */
  function FirstFault(qs: seq<Question>, answers: PyDict): Option<Fault> {
    if |qs| == 0 then None
    else
      var before := FirstFault(qs[..|qs| - 1], answers);
      if before.Some? then before
      else
        match ChosenChoice(qs[|qs| - 1], answers)
        case Err(f) => Some(f)
        case Ok(_) => None
  }

  /** The grading loop raises nothing when every answer converts ... */
  lemma {:induction false} FirstFaultNoneOfAll(qs: seq<Question>, answers: PyDict)
    requires AllChosen(qs, answers)
    ensures FirstFault(qs, answers).None?
  {
    if |qs| > 0 {
      var n := |qs| - 1;
      var init := qs[..n];
      forall k | 0 <= k < n ensures ChosenChoice(init[k], answers).Ok? {
        assert init[k] == qs[k];
      }
      FirstFaultNoneOfAll(init, answers);
      assert ChosenChoice(qs[n], answers).Ok?;
    }
  }

  /** A list in which some answer does not convert has a fault. */
  lemma FaultAt(qs: seq<Question>, answers: PyDict, k: nat)
    requires k < |qs| && ChosenChoice(qs[k], answers).Err?
    ensures FirstFault(qs, answers).Some?
  {
    var pre := qs[..k + 1];
    assert pre[..k] == qs[..k] && pre[k] == qs[k];
    FirstFaultPrefix(qs, answers, k + 1);
  }

  /** ... and only then: with no fault, every answer converts. */
  lemma AllOfFirstFaultNone(qs: seq<Question>, answers: PyDict)
    requires FirstFault(qs, answers).None?
    ensures AllChosen(qs, answers)
  {
    forall k | 0 <= k < |qs| ensures ChosenChoice(qs[k], answers).Ok? {
      if ChosenChoice(qs[k], answers).Err? {
        FaultAt(qs, answers, k);
        assert false;
      }
    }
  }

  /** The reported fault is the one of the first question whose answer does not convert. */
  lemma {:induction false} FirstFaultIsFirst(qs: seq<Question>, answers: PyDict)
    requires FirstFault(qs, answers).Some?
    ensures exists i :: (0 <= i < |qs| && ChosenChoice(qs[i], answers) == Err(FirstFault(qs, answers).value)
      && AllChosen(qs[..i], answers))
  {
    var n := |qs| - 1;
    var init := qs[..n];
    if FirstFault(init, answers).Some? {
      FirstFaultIsFirst(init, answers);
      var i :| 0 <= i < n && ChosenChoice(init[i], answers) == Err(FirstFault(init, answers).value)
        && AllChosen(init[..i], answers);
      assert init[i] == qs[i] && init[..i] == qs[..i];
    } else {
      AllOfFirstFaultNone(init, answers);
      assert ChosenChoice(qs[n], answers) == Err(FirstFault(qs, answers).value);
    }
  }

  /** One more question: the fault and the count of the longer prefix, from the shorter one's. */
  lemma GradeStep(qs: seq<Question>, answers: PyDict, i: nat)
    requires i < |qs|
    ensures FirstFault(qs[..i + 1], answers)
         == if FirstFault(qs[..i], answers).Some? then FirstFault(qs[..i], answers)
            else if ChosenChoice(qs[i], answers).Err? then Some(ChosenChoice(qs[i], answers).error) else None
    ensures CorrectCount(qs[..i + 1], answers)
         == CorrectCount(qs[..i], answers) + if Scores(qs[i], answers) then 1 else 0
  {
    var upto := qs[..i + 1];
    assert upto[..i] == qs[..i] && upto[i] == qs[i];
  }

  /** Once a prefix has a fault, the whole list reports that fault. */
  lemma {:induction false} FirstFaultPrefix(qs: seq<Question>, answers: PyDict, j: nat)
    requires j <= |qs| && FirstFault(qs[..j], answers).Some?
    ensures FirstFault(qs, answers) == FirstFault(qs[..j], answers)
    decreases |qs|
  {
    if j == |qs| {
      assert qs[..j] == qs;
    } else {
      var init := qs[..|qs| - 1];
      assert init[..j] == qs[..j];
      FirstFaultPrefix(init, answers, j);
    }
  }

  /** The number of questions that score. */
  function CorrectCount(qs: seq<Question>, answers: PyDict): (n: nat)
    ensures n <= |qs|
  {
    if |qs| == 0 then 0
    else CorrectCount(qs[..|qs| - 1], answers) + (if Scores(qs[|qs| - 1], answers) then 1 else 0)
  }

  /** Every question scores exactly when the count is the number of questions. */
  lemma {:induction false} CorrectCountAll(qs: seq<Question>, answers: PyDict)
    ensures CorrectCount(qs, answers) == |qs| <==> forall i :: 0 <= i < |qs| ==> Scores(qs[i], answers)
  {
    if |qs| > 0 {
      var init := qs[..|qs| - 1];
      CorrectCountAll(init, answers);
      assert forall i :: 0 <= i < |qs| - 1 ==> init[i] == qs[i];
    }
  }

  /** No question scores exactly when the count is zero. */
  lemma {:induction false} CorrectCountNone(qs: seq<Question>, answers: PyDict)
    ensures CorrectCount(qs, answers) == 0 <==> forall i :: 0 <= i < |qs| ==> !Scores(qs[i], answers)
  {
    if |qs| > 0 {
      var init := qs[..|qs| - 1];
      CorrectCountNone(init, answers);
      assert forall i :: 0 <= i < |qs| - 1 ==> init[i] == qs[i];
    }
  }

  /** The integer percentage: `correct * 100 // total`, 0 for an empty quiz. */
  function Score(correct: nat, total: nat): int {
    if total > 0 then (correct * 100) / total else 0
  }

  /** The score is a percentage, 0 when nothing is correct and 100 when everything is. */
  lemma ScoreBounds(correct: nat, total: nat)
    requires correct <= total
    ensures 0 <= Score(correct, total) <= 100
    ensures correct == 0 ==> Score(correct, total) == 0
    ensures 0 < total && correct == total ==> Score(correct, total) == 100
  {
    if total > 0 {
      var s := (correct * 100) / total;
      var m := (correct * 100) % total;
      assert correct * 100 == s * total + m && 0 <= m < total;
      if s > 100 {
        assert s * total >= 101 * total by { MulLeft(101, s, total); }
        assert false;
      }
      if correct == total {
        assert 100 * total == s * total + m;
        if s < 100 {
          MulLeft(s, 99, total);
          assert false;
        }
      }
    }
  }

  /** Multiplying by a non-negative number keeps an order. */
  lemma MulLeft(a: int, b: int, c: nat)
    requires a <= b
    ensures a * c <= b * c
  {
    assert b * c - a * c == (b - a) * c;
  }

  /** One entry of `results`. */
  datatype Review = Review(
    questionId: int, questionText: string,
    userAnswer: Option<string>, correctAnswer: Option<string>, isCorrect: bool)

  function ReviewOf(q: Question, chosen: Option<Choice>): Review {
    var correct := FirstCorrect(q.choices);
    Review(q.id, q.text,
           if chosen.Some? then Some(chosen.value.text) else None,
           if correct.Some? then Some(correct.value.text) else None,
           chosen.Some? && chosen.value.isCorrect)
  }

  /** The review list, one entry per question in question order. */
  function Reviews(qs: seq<Question>, answers: PyDict): seq<Review> {
    seq(|qs|, i requires 0 <= i < |qs| => ReviewOf(qs[i], Picked(qs[i], answers)))
  }

  /** Reviewing one more question appends its review. */
  lemma ReviewsStep(qs: seq<Question>, answers: PyDict, i: nat)
    requires i < |qs|
    ensures Reviews(qs[..i + 1], answers) == Reviews(qs[..i], answers) + [ReviewOf(qs[i], Picked(qs[i], answers))]
  {
    var a, b := Reviews(qs[..i + 1], answers), Reviews(qs[..i], answers) + [ReviewOf(qs[i], Picked(qs[i], answers))];
    forall k | 0 <= k < i + 1 ensures a[k] == b[k] {
      assert qs[..i + 1][k] == qs[k];
      if k < i {
        assert qs[..i][k] == qs[k];
      }
    }
  }

  function CountCorrectReviews(rs: seq<Review>): nat {
    if |rs| == 0 then 0
    else CountCorrectReviews(rs[..|rs| - 1]) + (if rs[|rs| - 1].isCorrect then 1 else 0)
  }

  /** The number of review entries marked correct is `correct_count`. */
  lemma {:induction false} ReviewsCountCorrect(qs: seq<Question>, answers: PyDict)
    ensures CountCorrectReviews(Reviews(qs, answers)) == CorrectCount(qs, answers)
  {
    if |qs| > 0 {
      var n := |qs| - 1;
      ReviewsCountCorrect(qs[..n], answers);
      ReviewsStep(qs, answers, n);
      assert qs[..n + 1] == qs;
      var rs := Reviews(qs, answers);
      assert rs[..n] == Reviews(qs[..n], answers);
    }
  }

  /** The first loop of `quiz_submit_view`: counts the scoring questions, or stops at the first exception. */
  method CountCorrect(qs: seq<Question>, answers: PyDict) returns (r: Result<nat, Fault>)
    ensures r.Err? <==> FirstFault(qs, answers).Some?
    ensures r.Err? ==> r.error == FirstFault(qs, answers).value
    ensures r.Ok? ==> r.value == CorrectCount(qs, answers)
  {
    var correct := 0;
    for i := 0 to |qs|
      invariant FirstFault(qs[..i], answers).None?
      invariant correct == CorrectCount(qs[..i], answers)
    {
      GradeStep(qs, answers, i);
      var q := qs[i];
      var value := AnswerValue(answers, q.id);
      var chosen: Option<Choice> := None;
      if value.Some? && PyTruthy(value.value) {
        var id := PyInt(value.value);
        if id.Err? {
          assert ChosenChoice(q, answers) == Err(id.error);
          FirstFaultPrefix(qs, answers, i + 1);
          return Err(id.error);
        }
        chosen := FindChoice(q.choices, id.value);
      }
      assert ChosenChoice(q, answers) == Ok(chosen);
      if chosen.Some? && chosen.value.isCorrect {
        correct := correct + 1;
      }
    }
    assert qs[..|qs|] == qs;
    return Ok(correct);
  }


  /** The second loop of `quiz_submit_view`: one review per question. */
  method BuildResults(qs: seq<Question>, answers: PyDict) returns (r: Result<seq<Review>, Fault>)
    ensures r.Err? <==> FirstFault(qs, answers).Some?
    ensures r.Err? ==> r.error == FirstFault(qs, answers).value
    ensures r.Ok? ==> r.value == Reviews(qs, answers)
  {
    var results: seq<Review> := [];
    for i := 0 to |qs|
      invariant FirstFault(qs[..i], answers).None?
      invariant results == Reviews(qs[..i], answers)
    {
      ghost var upto := qs[..i + 1];
      assert upto[..i] == qs[..i] && upto[i] == qs[i];
      var q := qs[i];
      var correctChoice := FirstCorrect(q.choices);
      var value := AnswerValue(answers, q.id);
      var userChoice: Option<Choice> := None;
      if value.Some? && PyTruthy(value.value) {
        var id := PyInt(value.value);
        if id.Err? {
          assert FirstFault(upto, answers) == Some(id.error);
          FirstFaultPrefix(qs, answers, i + 1);
          return Err(id.error);
        }
        userChoice := FindChoice(q.choices, id.value);
      }
      assert ChosenChoice(q, answers) == Ok(userChoice);
      ReviewsStep(qs, answers, i);
      results := results + [Review(
        q.id, q.text,
        if userChoice.Some? then Some(userChoice.value.text) else None,
        if correctChoice.Some? then Some(correctChoice.value.text) else None,
        userChoice.Some? && userChoice.value.isCorrect)];
    }
    assert qs[..|qs|] == qs;
    return Ok(results);
  }

  // ---------------------------------------------------------------------------
  // The submission as a whole

  datatype Grade = Grade(correct: nat, total: nat, score: int, passed: bool, results: seq<Review>)

  /** The grade of a submission that raised nothing: the count, the score, the pass rule and one review per question. */
  function GradeOf(quiz: Quiz, answers: PyDict): (g: Grade)
    ensures g.total == |quiz.questions| && g.correct <= g.total && |g.results| == g.total
    ensures g.passed <==> g.score >= quiz.passingScore
  {
    var total := |quiz.questions|;
    var correct := CorrectCount(quiz.questions, answers);
    var score := Score(correct, total);
    Grade(correct, total, score, score >= quiz.passingScore, Reviews(quiz.questions, answers))
  }

  /** What the grading promises: bounds, the extremes, the pass rule and one review per question. */
  lemma GradeFacts(quiz: Quiz, answers: PyDict)
    requires |quiz.questions| > 0
    ensures var g := GradeOf(quiz, answers);
      && 0 <= g.correct <= g.total == |quiz.questions|
      && 0 <= g.score <= 100
      && (g.score == 100 <== forall i :: 0 <= i < g.total ==> Scores(quiz.questions[i], answers))
      && (g.score == 0 <== forall i :: 0 <= i < g.total ==> !Scores(quiz.questions[i], answers))
      && (g.passed <==> g.score >= quiz.passingScore)
      && |g.results| == g.total
      && (forall i :: 0 <= i < g.total ==> g.results[i].questionId == quiz.questions[i].id)
      && CountCorrectReviews(g.results) == g.correct
  {
    var g := GradeOf(quiz, answers);
    CorrectCountAll(quiz.questions, answers);
    CorrectCountNone(quiz.questions, answers);
    ScoreBounds(g.correct, g.total);
    ReviewsCountCorrect(quiz.questions, answers);
  }

  /** Choice ids are primary keys: no two choices of a quiz share one. */
  predicate ChoiceIdsUnique(quiz: Quiz) {
    forall i, j, a, b ::
      0 <= i < |quiz.questions| && 0 <= j < |quiz.questions| &&
      0 <= a < |quiz.questions[i].choices| && 0 <= b < |quiz.questions[j].choices| &&
      quiz.questions[i].choices[a].id == quiz.questions[j].choices[b].id
      ==> i == j && a == b
  }

  /** Answering one question with a choice of another question neither scores nor shows a user answer. */
  lemma ForeignChoiceNeverScores(quiz: Quiz, answers: PyDict, i: nat, j: nat, b: nat)
    requires ChoiceIdsUnique(quiz)
    requires i < |quiz.questions| && j < |quiz.questions| && i != j && b < |quiz.questions[j].choices|
    requires AnswerValue(answers, quiz.questions[i].id) == Some(Num(quiz.questions[j].choices[b].id))
    ensures ChosenChoice(quiz.questions[i], answers) == Ok(None)
    ensures !Scores(quiz.questions[i], answers)
    ensures ReviewOf(quiz.questions[i], None).userAnswer.None?
  {
    var q := quiz.questions[i];
    var id := quiz.questions[j].choices[b].id;
    var found := FindChoice(q.choices, id);
    if found.Some? {
      assert false;
    }
  }

  /** An answer that is missing or falsy (null, 0, "", false) leaves the question unanswered. */
  lemma FalsyAnswerIsUnanswered(q: Question, answers: PyDict)
    requires var v := PyGet(answers, StrKey(IntToString(q.id))); v.None? || !PyTruthy(v.value)
    requires var v := PyGet(answers, IntKey(q.id)); v.None? || !PyTruthy(v.value)
    ensures ChosenChoice(q, answers) == Ok(None) && !Scores(q, answers)
    ensures ReviewOf(q, ChosenChoice(q, answers).value).userAnswer.None?
    ensures !ReviewOf(q, ChosenChoice(q, answers).value).isCorrect
  {
  }

  /** The outcome of a submission: a response sent without grading, or a grade. */
  datatype Verdict = Refused(response: Response) | Graded(quiz: Quiz, grade: Grade)

  /**
   * What `quiz_submit_view` answers: a refusal from validation, a 500 for the first
   * exception of the grading loop, or the grade of the active quiz with the URL's pk.
   */
  function Judge(quizzes: seq<Quiz>, pk: int, body: Json): (v: Verdict)
    ensures v.Refused? ==> v.response.status == 400 || v.response.status == 500
    ensures v.Graded? <==>
      Validate(quizzes, pk, body).Ok?
      && FirstFault(Validate(quizzes, pk, body).value.0.questions, Validate(quizzes, pk, body).value.1).None?
    ensures var checked := Validate(quizzes, pk, body);
      checked.Ok? && FirstFault(checked.value.0.questions, checked.value.1).Some? ==>
        v == Refused(ServerError(FirstFault(checked.value.0.questions, checked.value.1).value))
    ensures v.Graded? ==>
      && Some(v.quiz) == FindQuiz(quizzes, pk)
      && 0 < v.grade.total == |v.quiz.questions|
      && 0 <= v.grade.score <= 100
  {
    match Validate(quizzes, pk, body)
    case Err(resp) => Refused(resp)
    case Ok((quiz, answers)) =>
      var fault := FirstFault(quiz.questions, answers);
      if fault.Some? then Refused(ServerError(fault.value))
      else
        GradeFacts(quiz, answers);
        Graded(quiz, GradeOf(quiz, answers))
  }

  /** A missing or inactive quiz gives 500, not 404: `get_object_or_404` runs inside the `try`. */
  lemma MissingQuizIsServerError(quizzes: seq<Quiz>, pk: int, body: Json)
    requires forall i :: 0 <= i < |quizzes| ==> quizzes[i].id != pk || !quizzes[i].isActive
    ensures Judge(quizzes, pk, body) == Refused(ServerError(QuizNotFound))
    ensures Judge(quizzes, pk, body).response.status == 500
  {
    assert FindQuiz(quizzes, pk).None?;
  }

  /** A truthy `quiz_id` that `int()` reads as another quiz's id is refused with 400 before anything is graded. */
  lemma QuizIdMismatch(quizzes: seq<Quiz>, pk: int, fields: seq<(string, Json)>, v: Json, other: int)
    requires FindQuiz(quizzes, pk).Some?
    requires Get(fields, "quiz_id") == Some(v) && PyTruthy(v) && PyInt(v) == Ok(other) && other != pk
    ensures Judge(quizzes, pk, Obj(fields)) == Refused(BadRequest("Quiz ID mismatch"))
  {
    ValidateRefusals(quizzes, pk, Obj(fields));
  }

  /** The `quiz_id` check passes: the member is absent, null or falsy, or `int()` reads it as `pk`. */
  predicate QuizIdAccepted(fields: seq<(string, Json)>, pk: int) {
    var q := BodyField(fields, "quiz_id");
    q.None? || !PyTruthy(q.value) || PyInt(q.value) == Ok(pk)
  }

  /** `request.data.get('answers', {})` is a dict: the member is absent or an object. */
  predicate AnswersIsDict(fields: seq<(string, Json)>) {
    var a := Get(fields, "answers");
    a.None? || a.value.Obj?
  }

  /**
   * Each refusal, in the handler's order, with its own response: a body that is not a
   * dict and a `quiz_id` that `int()` rejects are caught exceptions (500); a `quiz_id` of
   * another quiz, an `answers` that is not a dict and a quiz without questions are 400s.
   */
  lemma ValidateRefusals(quizzes: seq<Quiz>, pk: int, body: Json)
    ensures FindQuiz(quizzes, pk).Some? && !body.Obj? ==>
      Validate(quizzes, pk, body) == Err(ServerError(NoGetAttribute(PyTypeName(body))))
    ensures FindQuiz(quizzes, pk).Some? && body.Obj? ==>
      var q := BodyField(body.fields, "quiz_id");
      q.Some? && PyTruthy(q.value) && PyInt(q.value).Err? ==>
        Validate(quizzes, pk, body) == Err(ServerError(PyInt(q.value).error))
    ensures FindQuiz(quizzes, pk).Some? && body.Obj? ==>
      var q := BodyField(body.fields, "quiz_id");
      q.Some? && PyTruthy(q.value) && PyInt(q.value).Ok? && PyInt(q.value).value != pk ==>
        Validate(quizzes, pk, body) == Err(BadRequest("Quiz ID mismatch"))
    ensures FindQuiz(quizzes, pk).Some? && body.Obj? && QuizIdAccepted(body.fields, pk) && !AnswersIsDict(body.fields) ==>
      Validate(quizzes, pk, body) == Err(BadRequest("Answers must be a dictionary"))
    ensures FindQuiz(quizzes, pk).Some? && body.Obj? && QuizIdAccepted(body.fields, pk) && AnswersIsDict(body.fields)
            && |FindQuiz(quizzes, pk).value.questions| == 0 ==>
      Validate(quizzes, pk, body) == Err(BadRequest("Quiz has no questions"))
  {
  }

  /** The converse: validation passes exactly when the quiz exists and every check passes. */
  lemma ValidateAccepts(quizzes: seq<Quiz>, pk: int, body: Json)
    ensures Validate(quizzes, pk, body).Ok? <==>
      && FindQuiz(quizzes, pk).Some? && body.Obj?
      && QuizIdAccepted(body.fields, pk) && AnswersIsDict(body.fields)
      && |FindQuiz(quizzes, pk).value.questions| > 0
  {
    ValidateRefusals(quizzes, pk, body);
  }

  /** One entry of `results`: the five keys of the view, in order, with `is_correct` a boolean. */
  function ReviewJson(r: Review): (j: Json)
    ensures j.Obj? && Keys(j.fields) == ["question_id", "question_text", "user_answer", "correct_answer", "is_correct"]
    ensures j.fields[2].1.Null? <==> r.userAnswer.None?
    ensures j.fields[4].1 == Bool(r.isCorrect)
  {
    Obj([("question_id", Num(r.questionId)),
         ("question_text", Str(r.questionText)),
         ("user_answer", if r.userAnswer.Some? then Str(r.userAnswer.value) else Null),
         ("correct_answer", if r.correctAnswer.Some? then Str(r.correctAnswer.value) else Null),
         ("is_correct", Bool(r.isCorrect))])
  }

  /** The 200 body: the six keys of the view, in order, with one entry of `results` per review. */
  function GradedBody(attemptId: int, g: Grade): (j: Json)
    ensures j.Obj? && Keys(j.fields) == ["attempt_id", "score", "total_questions", "correct_count", "passed", "results"]
    ensures j.fields[5].1.Arr? && |j.fields[5].1.items| == |g.results|
    ensures forall i :: 0 <= i < |g.results| ==> j.fields[5].1.items[i] == ReviewJson(g.results[i])
  {
    Obj([("attempt_id", Num(attemptId)),
         ("score", Num(g.score)),
         ("total_questions", Num(g.total)),
         ("correct_count", Num(g.correct)),
         ("passed", Bool(g.passed)),
         ("results", Arr(seq(|g.results|, i requires 0 <= i < |g.results| => ReviewJson(g.results[i]))))])
  }

  /** The quiz table and the attempt table the submission endpoint works on. */
  class QuizService {
    const quizzes: seq<Quiz>
    var attempts: seq<Attempt>

    constructor (quizzes: seq<Quiz>)
      ensures this.quizzes == quizzes && attempts == []
    {
      this.quizzes := quizzes;
      attempts := [];
    }

    /**
     * `quiz_submit_view`: a refused submission records nothing; a graded one records exactly
     * one attempt with its score and question count and answers 200 with the grade.
     */
    method Submit(user: int, pk: int, body: Json) returns (resp: Response)
      modifies this
      ensures Judge(quizzes, pk, body).Refused? ==>
        resp == Judge(quizzes, pk, body).response && attempts == old(attempts)
      ensures Judge(quizzes, pk, body).Graded? ==>
        var v := Judge(quizzes, pk, body);
        && attempts == old(attempts) + [Attempt(user, v.quiz.id, v.grade.score, v.grade.total)]
        && resp == Response(200, GradedBody(|attempts|, v.grade))
      ensures resp.status == 200 <==> |attempts| == |old(attempts)| + 1
    {
      var checked := Validate(quizzes, pk, body);
      if checked.Err? {
        return checked.error;
      }
      var quiz, answers := checked.value.0, checked.value.1;
      var counted := CountCorrect(quiz.questions, answers);
      if counted.Err? {
        return ServerError(counted.error);
      }
      var total := |quiz.questions|;
      var score := Score(counted.value, total);
      attempts := attempts + [Attempt(user, quiz.id, score, total)];
      var results := BuildResults(quiz.questions, answers);
      var grade := Grade(counted.value, total, score, score >= quiz.passingScore, results.value);
      resp := Response(200, GradedBody(|attempts|, grade));
    }
  }
}

=== FILE: dashboard_page.dfy ===
/**
 * The dashboard: the first six courses and the first six quizzes, each loaded on its own,
 * and the name the greeting uses.
 */
module DashboardPage {
  import opened Wrappers
  import opened Json
  import opened Seqs
  import opened AxiosClient
  import CoursesPage

  /**
   * `v.slice(0, 6)`: the first six elements of an array or characters of a string; any
   * other value has no `slice` and throws, which is None here.
   */
  function FirstSix(v: Json): (r: Option<Json>)
    ensures v.Arr? ==> r == Some(Arr(Take(v.items, 6)))
    ensures v.Str? ==> r == Some(Str(Take(v.s, 6)))
    ensures !v.Arr? && !v.Str? ==> r.None?
  {
    match v
    case Arr(items) => Some(Arr(Take(items, 6)))
    case Str(s) => Some(Str(Take(s, 6)))
    case _ => None
  }

  /** The courses to show for a settled `/api/courses/` request: unwrapped, then cut to six; `[]` on any failure. */
  function ShownCourses(outcome: Outcome): (s: Json)
    ensures s.Arr? || s.Str?
    ensures outcome.Rejected? ==> s == Arr([])
    ensures outcome.Resolved? && CoursesPage.Unwrap(outcome.data).None? ==> s == Arr([])
  {
    if outcome.Rejected? then Arr([])
    else
      var unwrapped := CoursesPage.Unwrap(outcome.data);
      if unwrapped.None? then Arr([])
      else FirstSix(unwrapped.value).GetOr(Arr([]))
  }

  /** The quizzes to show for a settled `/api/quizzes/` request: the body cut to six, with no unwrapping; `[]` on any failure. */
  function ShownQuizzes(outcome: Outcome): (s: Json)
    ensures s.Arr? || s.Str?
    ensures outcome.Rejected? ==> s == Arr([])
    ensures outcome.Resolved? && !outcome.data.Arr? && !outcome.data.Str? ==> s == Arr([])
  {
    if outcome.Rejected? then Arr([])
    else FirstSix(outcome.data).GetOr(Arr([]))
  }

  /** Whatever the server sends, at most six courses are shown, in the server's order. */
  lemma CoursesAtMostSix(outcome: Outcome)
    ensures ShownCourses(outcome).Arr? ==> |ShownCourses(outcome).items| <= 6
    ensures outcome.Resolved? && outcome.data.Arr? ==>
      ShownCourses(outcome).Arr? && ShownCourses(outcome).items <= outcome.data.items
  {
  }

  /**
   * A paginated course list is cut from its `results`; a quiz list is never unwrapped, so
   * a paginated quiz body (an object) is not an array and shows nothing.
   */
  lemma PaginationHandledForCoursesOnly(items: seq<Json>, rest: seq<(string, Json)>)
    requires |items| > 0
    ensures ShownCourses(Resolved(200, Obj([("results", Arr(items))] + rest))) == Arr(Take(items, 6))
    ensures ShownQuizzes(Resolved(200, Obj([("results", Arr(items))] + rest))) == Arr([])
  {
    assert Get([("results", Arr(items))] + rest, "results") == Some(Arr(items));
  }

  /** The quiz list shown is the first six quizzes of the body, in order. */
  lemma QuizzesFirstSix(items: seq<Json>)
    ensures ShownQuizzes(Resolved(200, Arr(items))).items <= items
    ensures |ShownQuizzes(Resolved(200, Arr(items))).items| == if |items| < 6 then |items| else 6
  {
  }

  /** `user?.first_name || user?.username || 'Coder'`. */
  function GreetingName(user: Option<Json>): (name: Json)
    ensures JsTruthy(Some(name))
  {
    JsOr(OptMember(user, "first_name"), JsOr(OptMember(user, "username"), Some(Str("Coder")))).value
  }

  /** The greeting prefers the first name, then the user name, and falls back to `Coder`. */
  lemma GreetingFallbacks(user: Option<Json>)
    ensures JsTruthy(OptMember(user, "first_name")) ==> GreetingName(user) == OptMember(user, "first_name").value
    ensures !JsTruthy(OptMember(user, "first_name")) && JsTruthy(OptMember(user, "username")) ==>
      GreetingName(user) == OptMember(user, "username").value
    ensures !JsTruthy(OptMember(user, "first_name")) && !JsTruthy(OptMember(user, "username")) ==>
      GreetingName(user) == Str("Coder")
  {
  }

  const Primary := "bg-primary-100 dark:bg-primary-900 text-primary-800 dark:text-primary-200"

  /** The dashboard's own `getLevelColor`: the course page's colours, with a primary badge for any other level. */
  function LevelColor(level: string): (c: string)
    ensures c == Primary <==> level !in {"beginner", "intermediate", "advanced"}
    ensures c != Primary ==> c in {CoursesPage.Green, CoursesPage.Yellow, CoursesPage.Red}
  {
    if level in {"beginner", "intermediate", "advanced"} then CoursesPage.LevelColor(level) else Primary
  }

  /**
   * The two pages agree on the three levels and disagree on every other one: the
   * dashboard shows an unknown level as primary, the course page as gray.
   */
  lemma LevelColorAgreesOnLevels(level: string)
    ensures level in {"beginner", "intermediate", "advanced"} <==> LevelColor(level) == CoursesPage.LevelColor(level)
    ensures level !in {"beginner", "intermediate", "advanced"} ==> LevelColor(level) == Primary
  {
    CoursesPage.LevelColorsDistinct(level);
    assert |Primary| != |CoursesPage.Gray|;
  }

  class DashboardView {
    var courses: Json
    var quizzes: Json
    var loading: bool
    var quizzesLoading: bool

    constructor ()
      ensures courses == Arr([]) && quizzes == Arr([]) && loading && quizzesLoading
    {
      courses := Arr([]);
      quizzes := Arr([]);
      loading := true;
      quizzesLoading := true;
    }

    /** `fetchCourses`: sets the course list and ends its own loading flag, whatever the outcome. */
    method LoadCourses(outcome: Outcome)
      modifies this`courses, this`loading
      ensures courses == ShownCourses(outcome) && !loading
      ensures outcome.Rejected? ==> courses == Arr([])
    {
      if outcome.Rejected? {
        courses := Arr([]);
      } else {
        var coursesData := CoursesPage.Unwrap(outcome.data);
        if coursesData.None? {
          courses := Arr([]);
        } else {
          var first := FirstSix(coursesData.value);
          courses := if first.Some? then first.value else Arr([]);
        }
      }
      loading := false;
    }

    /** `fetchQuizzes`: sets the quiz list and ends its own loading flag, whatever the outcome. */
    method LoadQuizzes(outcome: Outcome)
      modifies this`quizzes, this`quizzesLoading
      ensures quizzes == ShownQuizzes(outcome) && !quizzesLoading
      ensures outcome.Rejected? ==> quizzes == Arr([])
    {
      if outcome.Rejected? {
        quizzes := Arr([]);
      } else {
        var first := FirstSix(outcome.data);
        quizzes := if first.Some? then first.value else Arr([]);
      }
      quizzesLoading := false;
    }
  }
}

=== FILE: drf.dfy ===
/** What a Django REST framework view returns: an HTTP status and a JSON body. */
module Drf {
  import opened Json

  datatype Response = Response(status: int, body: Json)
}

=== FILE: json.dfy ===
/**
 * JSON values as both sides of the application see them: request and response bodies,
 * parsed error bodies, React state loaded from the API. Object members keep their
 * insertion order, because the front end reads them through `Object.keys` and
 * `Object.values`, and the back end builds dictionaries whose order is preserved.
 */
module Json {
  import opened Wrappers
  import opened Text

  /** A JSON value; numbers are integers (the API only exchanges integer ids, scores and counts). */
  datatype Json =
    | Null
    | Bool(b: bool)
    | Num(n: int)
    | Str(s: string)
    | Arr(items: seq<Json>)
    | Obj(fields: seq<(string, Json)>)

  /** Keys of an object's members, in order. */
  function Keys(fields: seq<(string, Json)>): (ks: seq<string>)
    ensures |ks| == |fields|
    ensures forall i :: 0 <= i < |fields| ==> ks[i] == fields[i].0
  {
    seq(|fields|, i requires 0 <= i < |fields| => fields[i].0)
  }

  /**
   * The value of the first member named `key`: Python's `dict.get(key)` and a JavaScript
   * property read, with None for a missing key (`None` / `undefined`).
   */
  function Get(fields: seq<(string, Json)>, key: string): (r: Option<Json>)
    ensures r.None? <==> key !in Keys(fields)
    ensures r.Some? ==> (key, r.value) in fields
  {
    if |fields| == 0 then None
    else if fields[0].0 == key then Some(fields[0].1)
    else
      assert Keys(fields) == [fields[0].0] + Keys(fields[1..]);
      Get(fields[1..], key)
  }

  /** The member found is the first one with the key: no earlier member has it. */
  lemma {:induction false} GetFindsFirst(fields: seq<(string, Json)>, key: string)
    requires Get(fields, key).Some?
    ensures exists i :: 0 <= i < |fields| && fields[i] == (key, Get(fields, key).value) && key !in Keys(fields[..i])
  {
    if fields[0].0 == key {
      assert fields[..0] == [];
      assert fields[0] == (key, Get(fields, key).value);
    } else {
      var rest := fields[1..];
      GetFindsFirst(rest, key);
      var i :| 0 <= i < |rest| && rest[i] == (key, Get(rest, key).value) && key !in Keys(rest[..i]);
      assert Keys(fields[..i + 1]) == [fields[0].0] + Keys(rest[..i]);
      assert fields[i + 1] == rest[i];
    }
  }

  /**
   * JavaScript's `v.key` on a value that is not null or undefined. Only objects have the
   * properties the application reads (`errors`, `message`, `detail`, `results`, ...); on
   * arrays, strings, numbers and booleans the read gives `undefined`.
   */
  function Member(v: Json, key: string): Option<Json> {
    if v.Obj? then Get(v.fields, key) else None
  }

  /** `v?.key`: undefined when `v` is undefined or null. */
  function OptMember(v: Option<Json>, key: string): Option<Json> {
    if v.Some? then Member(v.value, key) else None
  }

  /** JavaScript truthiness: undefined, null, false, 0 and "" are falsy; every array and object is truthy. */
  predicate JsTruthy(v: Option<Json>) {
    match v
    case None => false
    case Some(Null) => false
    case Some(Bool(b)) => b
    case Some(Num(n)) => n != 0
    case Some(Str(s)) => s != ""
    case Some(Arr(_)) => true
    case Some(Obj(_)) => true
  }

  /** Python truthiness: unlike JavaScript, the empty list and the empty dict are falsy. */
  predicate PyTruthy(v: Json) {
    match v
    case Null => false
    case Bool(b) => b
    case Num(n) => n != 0
    case Str(s) => s != ""
    case Arr(items) => |items| > 0
    case Obj(fields) => |fields| > 0
  }

  /** `a || b` in JavaScript: `a` when it is truthy, `b` otherwise. */
  function JsOr(a: Option<Json>, b: Option<Json>): (r: Option<Json>)
    ensures JsTruthy(a) ==> r == a
    ensures !JsTruthy(a) ==> r == b
  {
    if JsTruthy(a) then a else b
  }

  /**
   * `Object.entries(v)` for a truthy value: an object's own members, an array's elements
   * under their indices, a string's characters under their indices; nothing for numbers
   * and booleans.
   */
  function Entries(v: Json): (es: seq<(string, Json)>)
    ensures v.Obj? ==> es == v.fields
    ensures v.Arr? ==> |es| == |v.items| && forall i :: 0 <= i < |es| ==> es[i] == (IntToString(i), v.items[i])
    ensures v.Str? ==> |es| == |v.s| && forall i :: 0 <= i < |es| ==> es[i] == (IntToString(i), Str([v.s[i]]))
    ensures !v.Obj? && !v.Arr? && !v.Str? ==> es == []
  {
    match v
    case Obj(fields) => fields
    case Arr(items) => seq(|items|, i requires 0 <= i < |items| => (IntToString(i), items[i]))
    case Str(s) => seq(|s|, i requires 0 <= i < |s| => (IntToString(i), Str([s[i]])))
    case _ => []
  }

  // ---------------------------------------------------------------------------
  // String(v): what a template literal `${v}` prints

  /** `String(v)` for a value that is not undefined. */
  function ToJsString(v: Json): string {
    match v
    case Null => "null"
    case Bool(b) => if b then "true" else "false"
    case Num(n) => IntToString(n)
    case Str(s) => s
    case Arr(items) =>
      // Array.prototype.join(","): null elements print as the empty string
      Join(seq(|items|, i requires 0 <= i < |items| =>
             if items[i].Null? then "" else ToJsString(items[i])), ",")
    case Obj(_) => "[object Object]"
  }

  /** `String(v)` where `v` may be undefined. */
  function OptToJsString(v: Option<Json>): string {
    if v.Some? then ToJsString(v.value) else "undefined"
  }

  // ---------------------------------------------------------------------------
  // JSON.stringify

  function HexDigit(d: nat): (c: char)
    requires d < 16
    ensures IsRadixDigit(c, 16) && RadixDigitValue(c, 16) == d
  {
    if d < 10 then (d + '0' as int) as char else (d - 10 + 'a' as int) as char
  }

  /** How `JSON.stringify` writes one character of a string. */
  function EscapeChar(c: char): string {
    if c == '"' then "\\\""
    else if c == '\\' then "\\\\"
    else if c as int == 8 then "\\b"
    else if c == '\t' then "\\t"
    else if c == '\n' then "\\n"
    else if c as int == 12 then "\\f"
    else if c == '\r' then "\\r"
    else if c as int < 0x20 then
      ['\\', 'u', '0', '0', HexDigit(c as int / 16), HexDigit(c as int % 16)]
    else [c]
  }

  function Escape(s: string): string {
    if |s| == 0 then "" else EscapeChar(s[0]) + Escape(s[1..])
  }

  /** `JSON.stringify(s)` for a string. */
  function Quote(s: string): string {
    "\"" + Escape(s) + "\""
  }

  /** `JSON.stringify(v)`, without indentation. */
  function Stringify(v: Json): string {
    match v
    case Null => "null"
    case Bool(b) => if b then "true" else "false"
    case Num(n) => IntToString(n)
    case Str(s) => Quote(s)
    case Arr(items) =>
      "[" + Join(seq(|items|, i requires 0 <= i < |items| => Stringify(items[i])), ",") + "]"
    case Obj(fields) =>
      "{" + Join(seq(|fields|, i requires 0 <= i < |fields| =>
                   assert fields[i].1 < fields[i] < v;
                   Quote(fields[i].0) + ":" + Stringify(fields[i].1)), ",") + "}"
  }

  /** An object with one member prints as `{"key":value}`. */
  lemma StringifyOneMember(key: string, value: Json)
    ensures Stringify(Obj([(key, value)])) == "{" + Quote(key) + ":" + Stringify(value) + "}"
  {
    var fields := [(key, value)];
    var parts := seq(1, i requires 0 <= i < 1 => Quote(fields[i].0) + ":" + Stringify(fields[i].1));
    assert parts == [Quote(key) + ":" + Stringify(value)];
  }

  // ---------------------------------------------------------------------------
  // Reading an escaped string back: the partner of Escape

  /** The character a one-letter escape `\x` stands for, if `x` is one. */
  function ShortEscape(x: char): Option<char> {
    if x == '"' then Some('"')
    else if x == '\\' then Some('\\')
    else if x == '/' then Some('/')
    else if x == 'b' then Some(8 as char)
    else if x == 't' then Some('\t')
    else if x == 'n' then Some('\n')
    else if x == 'f' then Some(12 as char)
    else if x == 'r' then Some('\r')
    else None
  }

  /**
   * Decodes the body of a JSON string literal (the text between the quotes): escapes are
   * resolved, and an unescaped quote or control character is an error. A `\u` escape
   * naming a surrogate is refused, since a model character is a Unicode scalar value.
   */
  function Unescape(t: string): Option<string>
    decreases |t|
  {
    if |t| == 0 then Some("")
    else if t[0] == '\\' then
      if |t| >= 2 && ShortEscape(t[1]).Some? then
        var rest := Unescape(t[2..]);
        if rest.Some? then Some([ShortEscape(t[1]).value] + rest.value) else None
      else if |t| >= 6 && t[1] == 'u' && AllRadixDigits(t[2..6], 16) then
        var code := RadixValue(t[2..6], 16);
        FourHexDigits(t[2..6]);
        var rest := Unescape(t[6..]);
        if (code < 0xD800 || 0xE000 <= code) && rest.Some? then Some([code as char] + rest.value) else None
      else None
    else if t[0] == '"' || t[0] as int < 0x20 then None
    else
      var rest := Unescape(t[1..]);
      if rest.Some? then Some([t[0]] + rest.value) else None
  }

  /** The value of four hex digits, digit by digit; it is below 0x10000. */
  lemma FourHexDigits(h: string)
    requires |h| == 4 && AllRadixDigits(h, 16)
    ensures RadixValue(h, 16) ==
      ((RadixDigitValue(h[0], 16) * 16 + RadixDigitValue(h[1], 16)) * 16
        + RadixDigitValue(h[2], 16)) * 16 + RadixDigitValue(h[3], 16)
    ensures RadixValue(h, 16) < 0x10000
  {
    var d0, d1, d2, d3 := RadixDigitValue(h[0], 16), RadixDigitValue(h[1], 16),
                          RadixDigitValue(h[2], 16), RadixDigitValue(h[3], 16);
    assert RadixValue(h[..1], 16) == d0 by { assert h[..1][..0] == []; }
    assert RadixValue(h[..2], 16) == d0 * 16 + d1 by { assert h[..2][..1] == h[..1]; }
    assert RadixValue(h[..3], 16) == (d0 * 16 + d1) * 16 + d2 by { assert h[..3][..2] == h[..2]; }
    assert h[..4] == h;
  }

  lemma {:induction false} UnescapeChar(c: char, rest: string)
    ensures Unescape(EscapeChar(c) + rest) ==
      (if Unescape(rest).Some? then Some([c] + Unescape(rest).value) else None)
  {
    var t := EscapeChar(c) + rest;
    if c as int < 0x20 && c as int != 8 && c != '\t' && c != '\n' && c as int != 12 && c != '\r' {
      var hex := t[2..6];
      assert hex == ['0', '0', HexDigit(c as int / 16), HexDigit(c as int % 16)];
      FourHexDigits(hex);
      assert t[6..] == rest;
    } else if c == '"' || c == '\\' || c as int == 8 || c == '\t' || c == '\n' || c as int == 12 || c == '\r' {
      assert t[2..] == rest;
    } else {
      assert t[1..] == rest;
    }
  }

  /** Decoding what `JSON.stringify` wrote for a string gives the string back. */
  lemma {:induction false} UnescapeEscape(s: string)
    ensures Unescape(Escape(s)) == Some(s)
  {
    if |s| > 0 {
      UnescapeEscape(s[1..]);
      UnescapeChar(s[0], Escape(s[1..]));
      assert [s[0]] + s[1..] == s;
    }
  }
}

=== FILE: pdfs_page.dfy ===
/**
 * The study-material page: the fetched list of PDFs, narrowed by the selected course
 * filter, with an empty-state message that depends on the filter.
 */
module PdfsPage {
  import opened Wrappers
  import opened Text
  import opened Json
  import opened Seqs
  import opened AxiosClient

  /** `pdf => pdf.course === parseInt(filter)`: strict equality, so NaN matches nothing. */
  predicate OfCourse(pdf: Json, filter: string) {
    JsParseInt(filter).Some? && Member(pdf, "course") == Some(Num(JsParseInt(filter).value))
  }

  /** `filteredPDFs`: the whole list for `all`, otherwise the PDFs of the course the filter names. */
  function Shown(pdfs: seq<Json>, filter: string): (r: seq<Json>)
    ensures filter == "all" ==> r == pdfs
    ensures filter != "all" ==> r == Filter(pdfs, pdf => OfCourse(pdf, filter))
  {
    if filter == "all" then pdfs else Filter(pdfs, pdf => OfCourse(pdf, filter))
  }

  /**
   * A course filter keeps, in their order, exactly the PDFs whose `course` is the number
   * the filter spells.
   */
  lemma ShownByCourse(pdfs: seq<Json>, course: int)
    ensures Shown(pdfs, IntToString(course)) == Filter(pdfs, pdf => Member(pdf, "course") == Some(Num(course)))
  {
    JsParseIntRoundTrip(course);
    var p := (pdf: Json) => OfCourse(pdf, IntToString(course));
    var q := (pdf: Json) => Member(pdf, "course") == Some(Num(course));
    assert forall pdf :: p(pdf) == q(pdf);
    FilterSame(pdfs, p, q);
  }

  lemma {:induction false} FilterSame(xs: seq<Json>, p: Json -> bool, q: Json -> bool)
    requires forall x :: p(x) == q(x)
    ensures Filter(xs, p) == Filter(xs, q)
  {
    if |xs| > 0 {
      FilterSame(xs[1..], p, q);
    }
  }

  /** A course filter that is not a number matches nothing. */
  lemma NonNumericFilterShowsNothing(pdfs: seq<Json>, filter: string)
    requires filter != "all" && JsParseInt(filter).None?
    ensures Shown(pdfs, filter) == []
  {
    var p := (pdf: Json) => OfCourse(pdf, filter);
    assert forall pdf :: !p(pdf);
    FilterNone(pdfs, p);
  }

  /** The options of the filter menu: only `all` can be selected, so the whole list is always shown. */
  const FilterOptions: seq<string> := ["all"]

  lemma OnlyAllSelectable(pdfs: seq<Json>, i: nat)
    requires i < |FilterOptions|
    ensures Shown(pdfs, FilterOptions[i]) == pdfs
  {
  }

  /** The text shown when no PDF is listed. */
  function EmptyMessage(filter: string): (m: string)
    ensures m == "No PDFs available yet." <==> filter == "all"
    ensures m == "No PDFs found for this filter." <==> filter != "all"
  {
    if filter == "all" then "No PDFs available yet." else "No PDFs found for this filter."
  }

  class PdfsView {
    var pdfs: Json
    var loading: bool
    var error: string
    var filter: string
    ghost var requests: seq<string>

    constructor ()
      ensures pdfs == Arr([]) && loading && error == "" && filter == "all" && requests == []
    {
      pdfs := Arr([]);
      loading := true;
      error := "";
      filter := "all";
      requests := [];
    }

    /** `fetchPDFs`: the response body becomes the list; a failure sets `Failed to load PDFs`; loading ends. */
    method Load(outcome: Outcome)
      modifies this`pdfs, this`loading, this`error, this`requests
      ensures requests == old(requests) + ["/api/pdfs/"] && !loading
      ensures outcome.Resolved? ==> pdfs == outcome.data && error == old(error)
      ensures outcome.Rejected? ==> pdfs == old(pdfs) && error == "Failed to load PDFs"
    {
      requests := requests + ["/api/pdfs/"];
      if outcome.Resolved? {
        pdfs := outcome.data;
      } else {
        error := "Failed to load PDFs";
      }
      loading := false;
    }
  }
}

=== FILE: quiz_page.dfy ===
/**
 * The quiz page: the answers the learner has picked, the gate that refuses a submission
 * until every question is answered, the payload it posts, and the message it shows when
 * the submission fails. The outcome of each request (how the client's promise settles)
 * is a parameter.
 */
module QuizPage {
  import opened Wrappers
  import opened Text
  import opened Json
  import opened AxiosClient
  import CoursesViews

  // ---------------------------------------------------------------------------
  // Object.keys on the answer object

  /** Every set is empty or has an element. */
  lemma SomeElement(s: set<int>)
    ensures s == {} || exists x :: x in s
  {
    if forall x :: x !in s {
      assert s == {};
    }
  }

  lemma {:induction false} LeastExists(s: set<int>)
    requires s != {}
    ensures exists k :: k in s && forall j :: j in s ==> k <= j
  {
    SomeElement(s);
    var x :| x in s;
    if s != {x} {
      var rest := s - {x};
      LeastExists(rest);
      var m :| m in rest && forall j :: j in rest ==> m <= j;
      var k := if x < m then x else m;
      forall j | j in s
        ensures k <= j
      {
        if j != x {
          assert j in rest;
        }
      }
    } else {
      assert forall j :: j in s ==> x <= j;
    }
  }

  /** The least element of a non-empty set of integers. */
  function Least(s: set<int>): (k: int)
    requires s != {}
    ensures k in s && forall j :: j in s ==> k <= j
  {
    LeastExists(s);
    var k :| k in s && forall j :: j in s ==> k <= j;
    k
  }

  /** Putting the least element in front of the ascending rest gives the whole set ascending. */
  lemma PrependLeast(s: set<int>, k: int, tail: seq<int>)
    requires k in s && forall j :: j in s ==> k <= j
    requires |tail| == |s - {k}|
    requires forall i :: 0 <= i < |tail| ==> tail[i] in s - {k}
    requires forall q :: q in s - {k} ==> q in tail
    requires forall i, j :: 0 <= i < j < |tail| ==> tail[i] < tail[j]
    ensures |[k] + tail| == |s|
    ensures forall i :: 0 <= i < |[k] + tail| ==> ([k] + tail)[i] in s
    ensures forall q :: q in s ==> q in [k] + tail
    ensures forall i, j :: 0 <= i < j < |[k] + tail| ==> ([k] + tail)[i] < ([k] + tail)[j]
  {
    var ks := [k] + tail;
    forall i, j | 0 <= i < j < |ks| ensures ks[i] < ks[j] {
      assert ks[j] == tail[j - 1] && ks[j] in s - {k};
      if i > 0 {
        assert ks[i] == tail[i - 1];
      }
    }
    forall q | q in s ensures q in ks {
      if q != k {
        assert q in tail;
      }
    }
  }

  /**
   * `Object.keys(answers)`: the keys are question ids, which JavaScript enumerates in
   * ascending numeric order, each once (`AscendingOrder`).
   */
  function Ascending(s: set<int>): (ks: seq<int>)
    ensures |ks| == |s|
    ensures forall i :: 0 <= i < |ks| ==> ks[i] in s
    decreases |s|
  {
    if s == {} then []
    else
      var k := Least(s);
      [k] + Ascending(s - {k})
  }

  /** Every element of the set is enumerated, in strictly ascending order. */
  lemma {:induction false} AscendingOrder(s: set<int>)
    ensures forall q :: q in s ==> q in Ascending(s)
    ensures forall i, j :: 0 <= i < j < |Ascending(s)| ==> Ascending(s)[i] < Ascending(s)[j]
    decreases |s|
  {
    if s != {} {
      var k := Least(s);
      AscendingOrder(s - {k});
      PrependLeast(s, k, Ascending(s - {k}));
    }
  }

  lemma {:induction false} SubsetSize(a: set<int>, b: set<int>)
    requires a <= b
    ensures |a| <= |b|
  {
    if a != {} {
      SomeElement(a);
      var x :| x in a;
      SubsetSize(a - {x}, b - {x});
    }
  }

  // ---------------------------------------------------------------------------
  // The payload

  /**
   * The `answers` object of the payload: for each answered question, in key order, the
   * question id as a string and the chosen choice id as a number.
   */
  function Formatted(answers: map<int, int>): (fields: seq<(string, Json)>)
    ensures |fields| == |answers|
  {
    var ks := Ascending(answers.Keys);
    seq(|ks|, i requires 0 <= i < |ks| => (IntToString(ks[i]), Num(answers[ks[i]])))
  }

  /** `parseInt(s)` as `JSON.stringify` sends it: NaN goes out as null. */
  function ParseIntJson(s: string): Json {
    match JsParseInt(s)
    case Some(n) => Num(n)
    case None => Null
  }

  /** `parseInt` gives a number back from its string form. */
  lemma ParseIntJsonOfInt(n: int)
    ensures ParseIntJson(IntToString(n)) == Num(n)
  {
    JsParseIntRoundTrip(n);
  }

  /** The body of the submission: `{quiz_id: parseInt(id), answers: formattedAnswers}`. */
  function Payload(id: string, answers: map<int, int>): (p: Json)
    ensures p.Obj? && Keys(p.fields) == ["quiz_id", "answers"]
    ensures JsParseInt(id).None? ==> p.fields[0].1 == Null
    ensures JsParseInt(id).Some? ==> p.fields[0].1 == Num(JsParseInt(id).value)
    ensures p.fields[1].1 == Obj(Formatted(answers))
  {
    Obj([("quiz_id", ParseIntJson(id)), ("answers", Obj(Formatted(answers)))])
  }

  function SubmitPath(id: string): string {
    "/api/quizzes/" + id + "/submit/"
  }

  /** The payload holds, under the string form of each answered question id, the chosen choice id. */
  lemma PayloadLookup(answers: map<int, int>, q: int)
    requires q in answers
    ensures Get(Formatted(answers), IntToString(q)) == Some(Num(answers[q]))
  {
    var fields := Formatted(answers);
    var ks := Ascending(answers.Keys);
    AscendingOrder(answers.Keys);
    var i :| 0 <= i < |ks| && ks[i] == q;
    assert Keys(fields)[i] == IntToString(q);
    var r := Get(fields, IntToString(q));
    GetFindsFirst(fields, IntToString(q));
    var j :| 0 <= j < |fields| && fields[j] == (IntToString(q), r.value) && IntToString(q) !in Keys(fields[..j]);
    IntToStringInjective(ks[j], q);
  }

  /** The payload's keys are exactly the string forms of the answered question ids, one member each. */
  lemma PayloadKeys(answers: map<int, int>, q: int)
    ensures |Formatted(answers)| == |answers|
    ensures IntToString(q) in Keys(Formatted(answers)) <==> q in answers
  {
    var fields := Formatted(answers);
    var ks := Ascending(answers.Keys);
    if IntToString(q) in Keys(fields) {
      var i :| 0 <= i < |fields| && Keys(fields)[i] == IntToString(q);
      IntToStringInjective(ks[i], q);
    }
    if q in answers {
      PayloadLookup(answers, q);
    }
  }

  /**
   * What the server reads back from the payload for a question: the chosen choice id when
   * the question was answered with a non-zero id, nothing otherwise.
   */
  lemma ServerReadsAnswer(answers: map<int, int>, q: int)
    ensures CoursesViews.AnswerValue(CoursesViews.FromJson(Formatted(answers)), q)
         == if q in answers && answers[q] != 0 then Some(Num(answers[q])) else None
  {
    CoursesViews.JsonAnswersUseStringKeys(Formatted(answers), q);
    PayloadKeys(answers, q);
    if q in answers {
      PayloadLookup(answers, q);
    }
  }

  /**
   * A payload the page builds on the page of quiz `pk` passes every check of the server's
   * validation once the quiz exists and has questions: the server grades exactly the
   * answers the page holds.
   */
  lemma ServerAcceptsPayload(quizzes: seq<CoursesViews.Quiz>, pk: int, answers: map<int, int>)
    requires CoursesViews.FindQuiz(quizzes, pk).Some?
    requires |CoursesViews.FindQuiz(quizzes, pk).value.questions| > 0
    ensures CoursesViews.Validate(quizzes, pk, Payload(IntToString(pk), answers))
         == Ok((CoursesViews.FindQuiz(quizzes, pk).value, CoursesViews.FromJson(Formatted(answers))))
  {
    ParseIntJsonOfInt(pk);
    var body := Payload(IntToString(pk), answers);
    assert Get(body.fields, "quiz_id") == Some(Num(pk));
    assert Get(body.fields, "answers") == Some(Obj(Formatted(answers)));
  }

  /** `quiz?.questions?.length`: the size of a `questions` array or string; none for anything else. */
  function QuestionCount(quiz: Json): (r: Option<nat>)
    ensures var qs := Member(quiz, "questions");
      r.Some? <==> qs.Some? && (qs.value.Arr? || qs.value.Str?)
    ensures var qs := Member(quiz, "questions");
      qs.Some? && qs.value.Arr? ==> r == Some(|qs.value.items|)
  {
    match Member(quiz, "questions")
    case Some(Arr(items)) => Some(|items|)
    case Some(Str(s)) => Some(|s|)
    case _ => None
  }

  function GateMessage(quiz: Json): string {
    "Please answer all " + IntToString(QuestionCount(quiz).GetOr(0)) + " questions before submitting."
  }

  /** The gate's message names the question count: quizzes with different counts get different messages. */
  lemma GateMessageNamesCount(a: Json, b: Json)
    ensures GateMessage(a) == GateMessage(b) ==> QuestionCount(a).GetOr(0) == QuestionCount(b).GetOr(0)
  {
    var p, s := "Please answer all ", " questions before submitting.";
    var x, y := IntToString(QuestionCount(a).GetOr(0)), IntToString(QuestionCount(b).GetOr(0));
    if p + x + s == p + y + s {
      assert |x| == |y|;
      assert x == (p + x + s)[|p|..|p| + |x|];
      assert y == (p + y + s)[|p|..|p| + |y|];
      IntToStringInjective(QuestionCount(a).GetOr(0), QuestionCount(b).GetOr(0));
    }
  }

  /**
   * Answers are only given to rendered questions, so when the answer keys are question
   * ids and there are as many of them as questions, every question is answered.
   */
  lemma {:induction false} GateMeansAllAnswered(answers: map<int, int>, ids: seq<int>)
    requires forall q :: q in answers ==> q in ids
    requires |answers| == |ids|
    ensures forall i :: 0 <= i < |ids| ==> ids[i] in answers
  {
    forall i | 0 <= i < |ids|
      ensures ids[i] in answers
    {
      if ids[i] !in answers {
        var all := set x | x in ids;
        SetOfSeqSize(ids);
        forall q | q in answers ensures q in all - {ids[i]} {
          assert q in ids;
        }
        SubsetSize(answers.Keys, all - {ids[i]});
        assert false;
      }
    }
  }

  lemma {:induction false} SetOfSeqSize(xs: seq<int>)
    ensures |set x | x in xs| <= |xs|
  {
    if |xs| > 0 {
      SetOfSeqSize(xs[1..]);
      assert (set x | x in xs) == (set x | x in xs[1..]) + {xs[0]};
    } else {
      assert (set x | x in xs) == {};
    }
  }

  /**
   * The submit button's `disabled`: while submitting, with no answer, or with fewer
   * answers than the quiz has questions; a quiz without a question count never blocks it.
   */
  predicate Disabled(submitting: bool, answered: nat, quiz: Json)
    ensures !Disabled(submitting, answered, quiz) <==>
      !submitting && 0 < answered && (QuestionCount(quiz).None? || QuestionCount(quiz).value <= answered)
  {
    submitting || answered == 0 || answered < QuestionCount(quiz).GetOr(0)
  }

  /**
   * When every answer is to one of the quiz's questions, an enabled button always passes
   * the count gate, and then every question is answered.
   */
  lemma {:induction false} EnabledPassesGate(answers: map<int, int>, ids: seq<int>, quiz: Json)
    requires QuestionCount(quiz) == Some(|ids|)
    requires forall q :: q in answers ==> q in ids
    requires !Disabled(false, |answers|, quiz)
    ensures QuestionCount(quiz) == Some(|answers|)
    ensures forall i :: 0 <= i < |ids| ==> ids[i] in answers
  {
    var all := set x | x in ids;
    SetOfSeqSize(ids);
    forall q | q in answers ensures q in all {
      assert q in ids;
    }
    SubsetSize(answers.Keys, all);
    GateMeansAllAnswered(answers, ids);
  }

  /** Answering adds a key only for a question not answered before. */
  lemma AnswerCount(answers: map<int, int>, q: int, choice: int)
    ensures |answers[q := choice]| == if q in answers then |answers| else |answers| + 1
  {
    if q in answers {
      assert answers[q := choice].Keys == answers.Keys;
    } else {
      assert answers[q := choice].Keys == answers.Keys + {q};
    }
  }

  // ---------------------------------------------------------------------------
  // The error shown for a failed submission

  lemma StringifyNotEmpty(v: Json)
    ensures |Stringify(v)| > 0
  {
    if v.Num? {
      assert |IntToString(v.n)| > 0;
    }
  }

  /**
   * The message for a rejected submission: from the response body, `answers` first, then
   * `quiz_id` (both printed as JSON), then `detail`, then `message`, else the whole body as
   * JSON; with no body, the error's own message; else `Failed to submit quiz`.
   */
  function SubmitError(f: Failure): (e: Json)
    ensures JsTruthy(Some(e))
  {
    var data := ResponseData(f);
    if JsTruthy(data) then
      var answers := Member(data.value, "answers");
      var quizId := Member(data.value, "quiz_id");
      var detail := Member(data.value, "detail");
      var message := Member(data.value, "message");
      if JsTruthy(answers) then Str("Invalid answers format: " + Stringify(answers.value))
      else if JsTruthy(quizId) then Str("Invalid quiz ID: " + Stringify(quizId.value))
      else if JsTruthy(detail) then detail.value
      else if JsTruthy(message) then message.value
      else
        StringifyNotEmpty(data.value);
        Str(Stringify(data.value))
    else if ErrorMessage(f) != "" then Str(ErrorMessage(f))
    else Str("Failed to submit quiz")
  }

  /**
   * The first three tiers for a response with a body: a truthy `answers` is shown as
   * `Invalid answers format: ` and its JSON, else a truthy `quiz_id` as `Invalid quiz ID: `
   * and its JSON, else a truthy `detail` as it is. A falsy body (null, `""`, 0, false) is
   * passed over, and the axios message for the status is shown.
   */
  lemma SubmitErrorOfFieldBody(status: int, data: Json)
    ensures var answers := Member(data, "answers");
      JsTruthy(Some(data)) && JsTruthy(answers) ==>
        SubmitError(HttpError(Answered(status, data))) == Str("Invalid answers format: " + Stringify(answers.value))
    ensures var quizId := Member(data, "quiz_id");
      JsTruthy(Some(data)) && !JsTruthy(Member(data, "answers")) && JsTruthy(quizId) ==>
        SubmitError(HttpError(Answered(status, data))) == Str("Invalid quiz ID: " + Stringify(quizId.value))
    ensures var detail := Member(data, "detail");
      JsTruthy(Some(data)) && !JsTruthy(Member(data, "answers")) && !JsTruthy(Member(data, "quiz_id")) && JsTruthy(detail) ==>
        SubmitError(HttpError(Answered(status, data))) == detail.value
    ensures !JsTruthy(Some(data)) ==>
      SubmitError(HttpError(Answered(status, data))) == Str("Request failed with status code " + IntToString(status))
  {
  }

  /** A DRF-style `{"detail": d}` with a non-empty `d` shows `d`. */
  lemma DetailShowsDetail(status: int, d: string)
    requires d != ""
    ensures SubmitError(HttpError(Answered(status, Obj([("detail", Str(d))])))) == Str(d)
  {
    var fields := [("detail", Str(d))];
    assert Keys(fields) == ["detail"];
    assert Member(Obj(fields), "answers").None? && Member(Obj(fields), "quiz_id").None?;
    SubmitErrorOfFieldBody(status, Obj(fields));
  }

  /** A body without `answers`, `quiz_id` and `detail` shows its `message` when that is truthy, else the whole body as JSON. */
  lemma SubmitErrorOfPlainBody(status: int, data: Json)
    requires JsTruthy(Some(data))
    requires !JsTruthy(Member(data, "answers")) && !JsTruthy(Member(data, "quiz_id")) && !JsTruthy(Member(data, "detail"))
    ensures JsTruthy(Member(data, "message")) ==>
      SubmitError(HttpError(Answered(status, data))) == Member(data, "message").value
    ensures !JsTruthy(Member(data, "message")) ==>
      SubmitError(HttpError(Answered(status, data))) == Str(Stringify(data))
  {
  }

  /**
   * The server's validation refusals (`{"error": ...}` with status 400) carry none of the
   * fields the page looks for, so the page shows the body itself as JSON.
   */
  lemma RefusalShownRaw(message: string)
    ensures SubmitError(HttpError(Answered(400, CoursesViews.BadRequest(message).body)))
         == Str("{" + Quote("error") + ":" + Quote(message) + "}")
  {
    var fields := [("error", Str(message))];
    assert Keys(fields) == ["error"];
    assert Member(Obj(fields), "answers").None? && Member(Obj(fields), "quiz_id").None?;
    assert Member(Obj(fields), "detail").None? && Member(Obj(fields), "message").None?;
    SubmitErrorOfPlainBody(400, Obj(fields));
    StringifyOneMember("error", Str(message));
  }

  /** A body `{"error": e, "message": m}` with a non-empty `m` shows `m`. */
  lemma ErrorAndMessageShowsMessage(status: int, error: string, message: string)
    requires message != ""
    ensures SubmitError(HttpError(Answered(status, Obj([("error", Str(error)), ("message", Str(message))]))))
         == Str(message)
  {
    var fields := [("error", Str(error)), ("message", Str(message))];
    var body := Obj(fields);
    assert Keys(fields) == ["error", "message"];
    assert Get(fields[1..], "message") == Some(Str(message));
    assert Member(body, "answers").None? && Member(body, "quiz_id").None? && Member(body, "detail").None?;
    SubmitErrorOfPlainBody(status, body);
  }

  /** A failure the server catches (status 500) shows its `message`: `Failed to process quiz submission`. */
  lemma ServerFaultShowsMessage(fault: CoursesViews.Fault)
    ensures SubmitError(HttpError(Answered(500, CoursesViews.ServerError(fault).body)))
         == Str("Failed to process quiz submission")
  {
    ErrorAndMessageShowsMessage(500, CoursesViews.FaultText(fault), "Failed to process quiz submission");
  }

  /** Without a response body the error's own message is shown, and the fallback only when that is empty. */
  lemma UnansweredShowsMessage(message: string)
    ensures SubmitError(HttpError(Unanswered(message)))
         == if message != "" then Str(message) else Str("Failed to submit quiz")
  {
  }

  // ---------------------------------------------------------------------------
  // The page

  class QuizView {
    /** The `:id` parameter of the route. */
    const id: string
    /** The quiz as loaded; `Null` before it is. */
    var quiz: Json
    var answers: map<int, int>
    var loading: bool
    var submitting: bool
    /** The graded result; `Null` while the quiz is being taken. */
    var results: Json
    var error: Json
    /** Where the page navigated, if anywhere. */
    var navigatedTo: Option<string>
    /** The requests the page made: path and body (`Null` for a GET). */
    ghost var requests: seq<(string, Json)>

    constructor (id: string)
      ensures this.id == id && quiz == Null && answers == map[] && loading && !submitting
      ensures results == Null && error == Str("") && navigatedTo == None && requests == []
    {
      this.id := id;
      quiz := Null;
      answers := map[];
      loading := true;
      submitting := false;
      results := Null;
      error := Str("");
      navigatedTo := None;
      requests := [];
    }

    /** The mount effect: without a user the page goes to the login page; otherwise it loads the quiz. */
    method Open(user: Option<Json>, outcome: Outcome)
      modifies this
      ensures !JsTruthy(user) ==>
      && navigatedTo == Some("/login") && requests == old(requests) && loading == old(loading)
      && quiz == old(quiz) && error == old(error)
      ensures JsTruthy(user) ==> navigatedTo == old(navigatedTo) && requests == old(requests) + [("/api/quizzes/" + id + "/", Null)]
      ensures JsTruthy(user) ==> !loading
      ensures JsTruthy(user) && outcome.Resolved? ==> quiz == outcome.data && error == old(error)
      ensures JsTruthy(user) && outcome.Rejected? ==> quiz == old(quiz) && error == Str("Failed to load quiz")
      ensures answers == old(answers) && results == old(results) && submitting == old(submitting)
    {
      if !JsTruthy(user) {
        navigatedTo := Some("/login");
        return;
      }
      requests := requests + [("/api/quizzes/" + id + "/", Null)];
      if outcome.Resolved? {
        quiz := outcome.data;
      } else {
        error := Str("Failed to load quiz");
      }
      loading := false;
    }

    /** `handleAnswerChange`: records the choice for the question and leaves every other answer as it was. */
    method AnswerChange(questionId: int, choiceId: int)
      modifies this`answers
      ensures answers == old(answers)[questionId := choiceId]
      ensures forall q :: q in old(answers) && q != questionId ==> q in answers && answers[q] == old(answers)[q]
    {
      answers := answers[questionId := choiceId];
    }

    predicate SubmitDisabled()
      reads this
    {
      Disabled(submitting, |answers|, quiz)
    }

    /**
     * `handleSubmit`: the count gate, then the post of the payload, then the results or
     * the error message. `submitting` is false again on every path; the quiz, the answers
     * and the navigation are left alone.
     */
    method Submit(outcome: Outcome)
      modifies this`submitting, this`error, this`requests, this`results
      ensures !submitting
      ensures QuestionCount(quiz) != Some(|answers|) ==>
        error == Str(GateMessage(quiz)) && requests == old(requests) && results == old(results)
      ensures QuestionCount(quiz) == Some(|answers|) ==>
        requests == old(requests) + [(SubmitPath(id), Payload(id, answers))]
      ensures QuestionCount(quiz) == Some(|answers|) && outcome.Resolved? ==>
        results == outcome.data && error == Str("")
      ensures QuestionCount(quiz) == Some(|answers|) && outcome.Rejected? ==>
        results == old(results) && error == SubmitError(outcome.failure)
    {
      submitting := true;
      error := Str("");
      if QuestionCount(quiz) != Some(|answers|) {
        error := Str(GateMessage(quiz));
        submitting := false;
        return;
      }
      Post(outcome);
    }

    /** The `try` block of `handleSubmit` and its `finally`. */
    method Post(outcome: Outcome)
      modifies this`submitting, this`error, this`requests, this`results
      ensures !submitting
      ensures requests == old(requests) + [(SubmitPath(id), Payload(id, answers))]
      ensures outcome.Resolved? ==> results == outcome.data && error == Str("")
      ensures outcome.Rejected? ==> results == old(results) && error == SubmitError(outcome.failure)
    {
      var formatted := FormatAnswers(answers);
      requests := requests + [(SubmitPath(id), Obj([("quiz_id", ParseIntJson(id)), ("answers", Obj(formatted))]))];
      if outcome.Resolved? {
        results := outcome.data;
        error := Str("");
      } else {
        error := SubmitError(outcome.failure);
      }
      submitting := false;
    }

    /** Retake and close: the results are dropped and every answer is cleared. */
    method Reset()
      modifies this`results, this`answers
      ensures results == Null && answers == map[]
    {
      results := Null;
      answers := map[];
    }
  }

  /**
   * The `forEach` that builds `formattedAnswers`: each key under its string form, each
   * value through `parseInt`, which gives the choice id back.
   */
  method FormatAnswers(answers: map<int, int>) returns (fields: seq<(string, Json)>)
    ensures fields == Formatted(answers)
  {
    var ks := Ascending(answers.Keys);
    fields := [];
    var i := 0;
    while i < |ks|
      invariant 0 <= i <= |ks| && |fields| == i
      invariant forall k :: 0 <= k < i ==> fields[k] == (IntToString(ks[k]), Num(answers[ks[k]]))
    {
      var questionId := ks[i];
      ParseIntJsonOfInt(answers[questionId]);
      fields := fields + [(IntToString(questionId), ParseIntJson(IntToString(answers[questionId])))];
      i := i + 1;
    }
  }

}

=== FILE: seqs.dfy ===
/** Sequence operations the code applies to lists: filtering (Django querysets, `Array.prototype.filter`) and `slice(0, n)`. */
module Seqs {
  import opened Wrappers

  /**
   * The value of the first pair whose key is `key`: a read of a dictionary or a form kept
   * as a list of pairs; none exactly when no pair has the key.
   */
  function Lookup<K(==), V>(pairs: seq<(K, V)>, key: K): (r: Option<V>)
    ensures r.Some? ==> (key, r.value) in pairs
    ensures r.None? <==> forall i :: 0 <= i < |pairs| ==> pairs[i].0 != key
  {
    if |pairs| == 0 then None
    else if pairs[0].0 == key then Some(pairs[0].1)
    else Lookup(pairs[1..], key)
  }

  /** The elements of `xs` that satisfy `p`, in their original order. */
  function Filter<T>(xs: seq<T>, p: T -> bool): (r: seq<T>)
    ensures |r| <= |xs|
    ensures forall i :: 0 <= i < |r| ==> r[i] in xs && p(r[i])
    ensures forall i :: 0 <= i < |xs| && p(xs[i]) ==> xs[i] in r
  {
    if |xs| == 0 then []
    else if p(xs[0]) then [xs[0]] + Filter(xs[1..], p)
    else Filter(xs[1..], p)
  }

  /** Filtering works piece by piece, so it keeps the relative order of what it keeps. */
  lemma {:induction false} FilterConcat<T>(xs: seq<T>, ys: seq<T>, p: T -> bool)
    ensures Filter(xs + ys, p) == Filter(xs, p) + Filter(ys, p)
  {
    if |xs| > 0 {
      FilterConcat(xs[1..], ys, p);
      assert (xs + ys)[0] == xs[0] && (xs + ys)[1..] == xs[1..] + ys;
    } else {
      assert xs + ys == ys;
    }
  }

  /** A filter that keeps every element returns the sequence itself. */
  lemma {:induction false} FilterAll<T>(xs: seq<T>, p: T -> bool)
    requires forall i :: 0 <= i < |xs| ==> p(xs[i])
    ensures Filter(xs, p) == xs
  {
    if |xs| > 0 {
      FilterAll(xs[1..], p);
    }
  }

  /** A filter that keeps nothing returns the empty sequence. */
  lemma {:induction false} FilterNone<T>(xs: seq<T>, p: T -> bool)
    requires forall x :: !p(x)
    ensures Filter(xs, p) == []
  {
    if |xs| > 0 {
      FilterNone(xs[1..], p);
    }
  }

  /** Filtering twice is filtering once by both conditions. */
  lemma {:induction false} FilterFilter<T>(xs: seq<T>, p: T -> bool, q: T -> bool)
    ensures Filter(Filter(xs, p), q) == Filter(xs, x => p(x) && q(x))
  {
    if |xs| > 0 {
      FilterFilter(xs[1..], p, q);
    }
  }

  /** `xs.slice(0, n)`: at most the first `n` elements. */
  function Take<T>(xs: seq<T>, n: nat): (r: seq<T>)
    ensures |r| == if |xs| < n then |xs| else n
    ensures r <= xs
  {
    if |xs| < n then xs else xs[..n]
  }
}

=== FILE: signup_page.dfy ===
/**
 * The sign-up page: a form of six text fields, a password-match gate, and the hand-over
 * to the auth context's `signup`. The form is an object whose members keep their
 * insertion order, since it is posted as it is.
 */
module SignupPage {
  import opened Wrappers
  import opened Json
  import opened AxiosClient
  import opened AuthContext
  import opened Seqs

  /** The form's fields, in order, as name and value. */
  type Form = seq<(string, string)>

  /** `{...form, [name]: value}`: an existing field keeps its place and takes the value; a new one goes last. */
  function Assign(form: Form, name: string, value: string): (r: Form)
    ensures |r| == if Lookup(form, name).Some? then |form| else |form| + 1
  {
    if |form| == 0 then [(name, value)]
    else if form[0].0 == name then [(name, value)] + form[1..]
    else [form[0]] + Assign(form[1..], name, value)
  }

  /** A change event updates the field it names and no other. */
  lemma {:induction false} AssignField(form: Form, name: string, value: string, other: string)
    ensures Lookup(Assign(form, name, value), other) == if other == name then Some(value) else Lookup(form, other)
  {
    if |form| > 0 && form[0].0 != name {
      AssignField(form[1..], name, value, other);
    }
  }

  /** Assigning keeps the order of the fields: only the named one can change, and only in value. */
  lemma {:induction false} AssignKeepsNames(form: Form, name: string, value: string, i: nat)
    requires i < |form|
    ensures Assign(form, name, value)[i].0 == form[i].0
    ensures form[i].0 != name ==> Assign(form, name, value)[i] == form[i]
  {
    if form[0].0 != name && i > 0 {
      AssignKeepsNames(form[1..], name, value, i - 1);
    }
  }

  /** The form as `signup` receives it. */
  function FormJson(form: Form): (v: Json)
    ensures v.Obj? && Keys(v.fields) == seq(|form|, i requires 0 <= i < |form| => form[i].0)
  {
    Obj(seq(|form|, i requires 0 <= i < |form| => (form[i].0, Str(form[i].1))))
  }

  const InitialForm: Form := [("email", ""), ("username", ""), ("password", ""), ("password2", ""),
                              ("first_name", ""), ("last_name", "")]

  class SignupView {
    const session: Session
    var form: Form
    /** The message shown; it takes `result.error` as it is, which may be undefined. */
    var error: Option<Json>
    var loading: bool
    var navigatedTo: Option<string>

    constructor (session: Session)
      ensures this.session == session && form == InitialForm
      ensures error == Some(Str("")) && !loading && navigatedTo == None
    {
      this.session := session;
      form := InitialForm;
      error := Some(Str(""));
      loading := false;
      navigatedTo := None;
    }

    /** `handleChange`: the input named `name` now holds `value`. */
    method Change(name: string, value: string)
      modifies this`form
      ensures form == Assign(old(form), name, value)
    {
      form := Assign(form, name, value);
    }

    /**
     * `handleSubmit`: the error is cleared; mismatching passwords stop the submission
     * with `Passwords do not match`; otherwise the whole form goes to `signup`, and the
     * page goes to the dashboard on success or shows the returned error.
     */
    method Submit(outcome: Outcome)
      modifies this`error, this`loading, this`navigatedTo, session, session.storage
      ensures Lookup(form, "password") != Lookup(form, "password2") ==>
        && error == Some(Str("Passwords do not match"))
        && loading == old(loading) && navigatedTo == old(navigatedTo)
        && session.requests == old(session.requests) && session.storage.items == old(session.storage.items)
      ensures Lookup(form, "password") == Lookup(form, "password2") ==>
        && session.requests == old(session.requests) + [("/api/register/", FormJson(form))]
        && !loading
      ensures Lookup(form, "password") == Lookup(form, "password2") && HasTokens(outcome) ==>
        navigatedTo == Some("/dashboard") && error == Some(Str(""))
      ensures Lookup(form, "password") == Lookup(form, "password2") && outcome.Rejected? ==>
        navigatedTo == old(navigatedTo)
        && error == NormalizeError(ResponseData(outcome.failure), "Registration failed")
      ensures Lookup(form, "password") == Lookup(form, "password2") && outcome.Resolved? && !HasTokens(outcome) ==>
        navigatedTo == old(navigatedTo) && error == Some(Str("Registration failed"))
      ensures Lookup(form, "password") != Lookup(form, "password2") || !HasTokens(outcome) ==>
        session.storage.items == old(session.storage.items) && session.user == old(session.user)
      ensures Lookup(form, "password") == Lookup(form, "password2") && HasTokens(outcome) ==>
        var tokens := Member(outcome.data, "tokens").value;
        && session.storage.items == old(session.storage.items)["access_token" := OptToJsString(Member(tokens, "access"))]
                                                              ["refresh_token" := OptToJsString(Member(tokens, "refresh"))]
        && session.user == Member(outcome.data, "user")
      ensures session.loading == old(session.loading)
    {
      error := Some(Str(""));
      if Lookup(form, "password") != Lookup(form, "password2") {
        error := Some(Str("Passwords do not match"));
        return;
      }
      loading := true;
      var result := session.Signup(FormJson(form), outcome);
      if result.Success? {
        navigatedTo := Some("/dashboard");
      } else {
        error := result.error;
      }
      loading := false;
    }
  }
}

=== FILE: text.dfy ===
/**
 * String helpers shared by the back end (Python) and the front end (JavaScript):
 * decimal numerals, Python's `int(str)`, JavaScript's `parseInt`, `Array.prototype.join`,
 * `String.prototype.replace` with a one-character pattern, and the field labels the
 * front end builds from error keys.
 */
module Text {
  import opened Wrappers

  // ---------------------------------------------------------------------------
  // Digits in a radix (10 or 16)

  predicate IsRadixDigit(c: char, radix: nat) {
    ('0' <= c <= '9' && (c as int - '0' as int) < radix)
    || (radix == 16 && ('a' <= c <= 'f' || 'A' <= c <= 'F'))
  }

  function RadixDigitValue(c: char, radix: nat): (d: nat)
    requires IsRadixDigit(c, radix)
    ensures d < radix
  {
    if '0' <= c <= '9' then c as int - '0' as int
    else if 'a' <= c <= 'f' then c as int - 'a' as int + 10
    else c as int - 'A' as int + 10
  }

  predicate AllRadixDigits(s: string, radix: nat) {
    forall i :: 0 <= i < |s| ==> IsRadixDigit(s[i], radix)
  }

  predicate AllDigits(s: string) {
    AllRadixDigits(s, 10)
  }

  /** Value of a run of digits, most significant first; leading zeros are allowed. */
  function RadixValue(s: string, radix: nat): nat
    requires AllRadixDigits(s, radix)
  {
    if |s| == 0 then 0
    else RadixValue(s[..|s| - 1], radix) * radix + RadixDigitValue(s[|s| - 1], radix)
  }

  function DigitChar(d: nat): (c: char)
    requires d < 10
    ensures IsRadixDigit(c, 10) && RadixDigitValue(c, 10) == d
  {
    (d + '0' as int) as char
  }

  // ---------------------------------------------------------------------------
  // Decimal numerals: Python `str(n)` and JavaScript `String(n)` agree on integers

  /** Decimal numeral of `n`, without leading zeros. */
  function NatToString(n: nat): (s: string)
    ensures 1 <= |s| && AllDigits(s)
    ensures s[0] == '0' ==> n == 0
  {
    if n < 10 then [DigitChar(n)] else NatToString(n / 10) + [DigitChar(n % 10)]
  }

  function IntToString(n: int): string {
    if n < 0 then "-" + NatToString(-n) else NatToString(n)
  }

  /** Reading the numeral back gives the number. */
  lemma {:induction false} NatToStringValue(n: nat)
    ensures RadixValue(NatToString(n), 10) == n
  {
    var s := NatToString(n);
    if n < 10 {
      assert s[..|s| - 1] == [];
    } else {
      NatToStringValue(n / 10);
      assert s[..|s| - 1] == NatToString(n / 10);
    }
  }

  // ---------------------------------------------------------------------------
  // Python's int(str): surrounding whitespace, an optional sign, one or more digits

  /** `str.isspace` on one character: ASCII white space, the separators 0x1C-0x1F and Unicode's spaces. */
  predicate IsPySpace(c: char) {
    var n := c as int;
    9 <= n <= 13 || 0x1C <= n <= 0x20 || n == 0x85 || n == 0xA0 || n == 0x1680
    || 0x2000 <= n <= 0x200A || n == 0x2028 || n == 0x2029 || n == 0x202F || n == 0x205F || n == 0x3000
  }

  function PyStripLeft(s: string): string {
    if |s| > 0 && IsPySpace(s[0]) then PyStripLeft(s[1..]) else s
  }

  function PyStripRight(s: string): string {
    if |s| > 0 && IsPySpace(s[|s| - 1]) then PyStripRight(s[..|s| - 1]) else s
  }

  /** Signed decimal numeral with at least one digit, or None for a string Python's `int` refuses. */
  function SignedDecimal(t: string): Option<int> {
    if |t| > 0 && (t[0] == '-' || t[0] == '+') then
      var digits := t[1..];
      if |digits| > 0 && AllDigits(digits) then
        var v: int := RadixValue(digits, 10);
        Some(if t[0] == '-' then -v else v)
      else None
    else if |t| > 0 && AllDigits(t) then Some(RadixValue(t, 10))
    else None
  }

  /** `int(s)` on a string: Some(value), or None where Python raises ValueError. */
  function PyIntOfString(s: string): Option<int> {
    SignedDecimal(PyStripRight(PyStripLeft(s)))
  }

  /** Python's `int(str(n)) == n`. */
  lemma PyIntRoundTrip(n: int)
    ensures PyIntOfString(IntToString(n)) == Some(n)
  {
    var s := IntToString(n);
    var m := if n < 0 then -n else n;
    var digits := NatToString(m);
    NatToStringValue(m);
    assert PyStripLeft(s) == s;
    assert s[|s| - 1] == digits[|digits| - 1];
    assert PyStripRight(s) == s;
    if n < 0 {
      assert s[1..] == digits;
    }
  }

  // ---------------------------------------------------------------------------
  // JavaScript's parseInt(string) with no radix argument

  /** ECMAScript WhiteSpace and LineTerminator code points. */
  predicate IsJsSpace(c: char) {
    var k := c as int;
    k == 9 || k == 10 || k == 11 || k == 12 || k == 13 || k == 32 || k == 0xA0 || k == 0x1680
    || (0x2000 <= k <= 0x200A) || k == 0x2028 || k == 0x2029 || k == 0x202F || k == 0x205F
    || k == 0x3000 || k == 0xFEFF
  }

  function JsTrimLeft(s: string): string {
    if |s| > 0 && IsJsSpace(s[0]) then JsTrimLeft(s[1..]) else s
  }

  /** Length of the longest prefix of `s` made of digits in `radix`. */
  function DigitRun(s: string, radix: nat): (n: nat)
    ensures n <= |s| && AllRadixDigits(s[..n], radix)
    ensures n < |s| ==> !IsRadixDigit(s[n], radix)
  {
    if |s| > 0 && IsRadixDigit(s[0], radix) then
      var k := DigitRun(s[1..], radix);
      assert s[..k + 1] == [s[0]] + s[1..][..k];
      k + 1
    else 0
  }

  /**
   * `parseInt(s)`: leading white space, an optional sign, a `0x`/`0X` prefix selecting
   * radix 16, then the longest run of digits; None stands for NaN (no digit at all).
   */
  function JsParseInt(s: string): Option<int> {
    var t := JsTrimLeft(s);
    var negative := |t| > 0 && t[0] == '-';
    var u := if |t| > 0 && (t[0] == '-' || t[0] == '+') then t[1..] else t;
    var hex := |u| >= 2 && u[0] == '0' && (u[1] == 'x' || u[1] == 'X');
    var radix := if hex then 16 else 10;
    var body := if hex then u[2..] else u;
    var end := DigitRun(body, radix);
    if end == 0 then None
    else
      var v: int := RadixValue(body[..end], radix);
      Some(if negative then -v else v)
  }

  /** `parseInt(String(n)) == n` for every integer `n`. */
  lemma JsParseIntRoundTrip(n: int)
    ensures JsParseInt(IntToString(n)) == Some(n)
  {
    var s := IntToString(n);
    var m := if n < 0 then -n else n;
    var digits := NatToString(m);
    NatToStringValue(m);
    assert JsTrimLeft(s) == s;
    var u := if n < 0 then s[1..] else s;
    assert u == digits;
    assert DigitRun(digits, 10) == |digits| by {
      DigitRunOfDigits(digits, 10);
    }
    assert digits[..|digits|] == digits;
  }

  /** Distinct integers have distinct decimal forms. */
  lemma IntToStringInjective(a: int, b: int)
    requires IntToString(a) == IntToString(b)
    ensures a == b
  {
    JsParseIntRoundTrip(a);
    JsParseIntRoundTrip(b);
  }

  lemma {:induction false} DigitRunOfDigits(s: string, radix: nat)
    requires AllRadixDigits(s, radix)
    ensures DigitRun(s, radix) == |s|
  {
    if |s| > 0 {
      DigitRunOfDigits(s[1..], radix);
    }
  }

  // ---------------------------------------------------------------------------
  // Array.prototype.join and String.prototype.replace

  /** `parts.join(sep)`. */
  function Join(parts: seq<string>, sep: string): string {
    if |parts| == 0 then ""
    else if |parts| == 1 then parts[0]
    else parts[0] + sep + Join(parts[1..], sep)
  }

  /** Index of the first occurrence of `c` in `s`. */
  function IndexOf(s: string, c: char): (i: nat)
    requires c in s
    ensures i < |s| && s[i] == c && c !in s[..i]
  {
    if s[0] == c then 0
    else
      var k := IndexOf(s[1..], c);
      assert s[..k + 1] == [s[0]] + s[1..][..k];
      k + 1
  }

  /** `s.replace(from, to)` for one-character strings: only the first occurrence is replaced. */
  function ReplaceFirst(s: string, from: char, to: char): string {
    if |s| == 0 then s
    else if s[0] == from then [to] + s[1..]
    else [s[0]] + ReplaceFirst(s[1..], from, to)
  }

  /** The replacement touches exactly the first occurrence, and nothing when there is none. */
  lemma {:induction false} ReplaceFirstSpec(s: string, from: char, to: char)
    ensures from !in s ==> ReplaceFirst(s, from, to) == s
    ensures from in s ==>
      var i := IndexOf(s, from);
      ReplaceFirst(s, from, to) == s[..i] + [to] + s[i + 1..]
  {
    if |s| > 0 && s[0] != from {
      ReplaceFirstSpec(s[1..], from, to);
      if from in s {
        assert from in s[1..];
        var k := IndexOf(s[1..], from);
        assert IndexOf(s, from) == k + 1;
        assert s[..k + 1] == [s[0]] + s[1..][..k];
        assert s[k + 2..] == s[1..][k + 1..];
      } else {
        assert from !in s[1..];
      }
    }
  }

  /** `c.toUpperCase()` on one character; only ASCII letters are mapped. */
  function ToUpperAscii(c: char): char {
    if 'a' <= c <= 'z' then (c as int - 32) as char else c
  }

  /**
   * The label the front end prints before a field's error:
   * `field.charAt(0).toUpperCase() + field.slice(1).replace('_', ' ')`.
   */
  function FieldLabel(field: string): string {
    if |field| == 0 then "" else [ToUpperAscii(field[0])] + ReplaceFirst(field[1..], '_', ' ')
  }

  /**
   * A label upper-cases the first character and turns only the first underscore after it
   * into a space; a leading underscore and every later underscore stay.
   */
  lemma FieldLabelSpec(field: string)
    ensures |FieldLabel(field)| == |field|
    ensures |field| > 0 ==> FieldLabel(field)[0] == ToUpperAscii(field[0])
    ensures |field| > 0 && '_' !in field[1..] ==> FieldLabel(field)[1..] == field[1..]
    ensures |field| > 0 && '_' in field[1..] ==>
      var i := IndexOf(field[1..], '_') + 1;
      FieldLabel(field)[1..] == field[1..i] + " " + field[i + 1..]
  {
    if |field| > 0 {
      var rest := field[1..];
      ReplaceFirstSpec(rest, '_', ' ');
      if '_' in rest {
        var k := IndexOf(rest, '_');
        assert rest[..k] == field[1..k + 1];
        assert rest[k + 1..] == field[k + 2..];
      }
    }
  }

  /** Replacing in `a + [from] + b`, where `a` holds no `from`, changes exactly that character. */
  lemma {:induction false} ReplaceFirstAt(a: string, b: string, from: char, to: char)
    requires from !in a
    ensures ReplaceFirst(a + [from] + b, from, to) == a + [to] + b
  {
    if |a| > 0 {
      ReplaceFirstAt(a[1..], b, from, to);
      assert (a + [from] + b)[1..] == a[1..] + [from] + b;
    }
  }

  /** The label of a field whose first underscore after position 0 splits it into `a` and `b`. */
  lemma FieldLabelAt(c: char, a: string, b: string)
    requires '_' !in a
    ensures FieldLabel([c] + a + "_" + b) == [ToUpperAscii(c)] + a + " " + b
  {
    assert ([c] + a + "_" + b)[1..] == a + ['_'] + b;
    ReplaceFirstAt(a, b, '_', ' ');
  }

  lemma FieldLabelOfEmail()
    ensures FieldLabel("email") == "Email"
  {
    ReplaceFirstSpec("mail", '_', ' ');
  }

  lemma FieldLabelOfFirstName()
    ensures FieldLabel("first_name") == "First name"
  {
    FieldLabelAt('f', "irst", "name");
    assert ['f'] + "irst" + "_" + "name" == "first_name";
    assert ToUpperAscii('f') == 'F';
    assert ['F'] + "irst" + " " + "name" == "First name";
  }

  /**
   * Only the first underscore becomes a space: `non_` followed by anything reads `Non `
   * followed by the same text, so `non_field_errors` reads `Non field_errors`.
   */
  lemma FieldLabelOfNonPrefix(rest: string)
    ensures FieldLabel("non_" + rest) == "Non " + rest
  {
    FieldLabelAt('n', "on", rest);
    assert ['n'] + "on" + "_" + rest == "non_" + rest;
    assert [ToUpperAscii('n')] + "on" + " " + rest == "Non " + rest;
  }
}

=== FILE: wrappers.dfy ===
/** Optional values and results with an error, shared by every module of the model. */
module Wrappers {

  /** A value that may be missing. In the front-end modules `None` also stands for JavaScript's `undefined`. */
  datatype Option<+T> = None | Some(value: T) {
    function GetOr(default: T): T {
      match this
      case Some(v) => v
      case None => default
    }
  }

  /** Either a value or the error that stopped its computation (a raised Python exception, a rejected promise). */
  datatype Result<+T, +E> = Ok(value: T) | Err(error: E)
}
